=== FILE: README.md ===
# udplogger, modelled in Dafny

`udplogger` is a small daemon. It listens on UDP ports that an XML
configuration names and appends every datagram from a configured sender to a
log file. It rotates the file when the file grows past a size limit. Nearly
all of its decisions are plain logic on strings, element trees and dicts
under a thin layer of sockets and file I/O. This project models that logic
in Dafny and proves what the program promises about it.

The modules follow the program's structure:

| file | module | models |
|---|---|---|
| `outcomes.dfy` | `Outcomes` | `Option`, and `Result` with the Python exceptions the code can raise (`Fault`) |
| `text.dfy` | `Text` | `str(int)`, `str.lower`, `str.find`, `in` on strings, slicing, `str.replace("/", "_")` |
| `scalars.dfy` | `Scalars` | `database.gettype`, `settype` and `bl`: the text ↔ scalar coercion |
| `codec.dfy` | `Codec` | `hasKids`, `parseKids` and `buildXML`: element tree ↔ insertion-ordered dict, and their round trip |
| `comment.dfy` | `Comment` | `getXMLcomment("")`: the text between the first `<!--` and the first `-->` |
| `sources.dfy` | `Sources` | the source record the daemon builds per configuration entry, its defaults, the receive filter, and the document `createXML` writes |
| `rotation.dfy` | `Rotation` | `logPath`, `movePath` and `copyFile` on a file system modelled as `map<string, string>` |
| `logging.dfy` | `Logging` | `writelog`, `onreceive`, one dispatch pass of the capture loop, and the start-up pass over the configuration |
| `args.dfy` | `Args` | the command-line loop of `run` |

Python semantics that matter here are spelled out rather than assumed:

- A dict is a sequence of entries with unique keys. Assigning to an existing key keeps the key's first position.
- `in` is a substring test on a string, a key test on a dict, and a TypeError on a number or bool.
- A bool compares as 0 or 1.
- An int compared with a float uses the float's floor, integrality and infinities (`FloatVal`).
- Truthiness follows Python: an empty string is false, and so is an empty dict.
- `os.path.join` follows POSIX: an absolute second part replaces the first.
- Every exception that would end the process is an `Err(fault)`. Every exception the code swallows is modelled as the code's fallback.

Python's `int()` and `float()` literal grammars are a parameter, `Numerals`.
The ghost predicate `Sound` lists the few facts about them that the proofs
use, and `Scalars.SoundIsSatisfiable` shows those facts can all hold at once.
`int(str(n)) == n` is assumed for every int: CPython's limit on the number
of digits it converts is not modelled (see "## Left out").

The command-line loop deletes `-d`/`-s` from the list it is iterating over.
The element after a consumed flag is therefore never examined. It stays in
the list and makes the final length check fail. The model keeps this
behaviour: `prog -d -s` is refused with the token `-s`. `Args.ServeExactly`
states exactly which command lines start the daemon.

The model follows the code where it differs from what its own text or
usual expectations suggest:

- The size that triggers rotation counts characters (`len` of the text line). The comment in the default document calls it bytes (udplogger.py line 171).
- Rotation runs on console-only runs as well, because `movePath` does not check daemon mode.
- The configured ip only filters senders. Every socket binds to the wildcard address.

## Model

| member | source | states |
|---|---|---|
| Text.Lower | opt/udplogger/udplogger.py:84-86 | ASCII lower-casing, position by position, with the length kept. In the comparisons with "true", "false", "yes" and "1" at lines 70 and 84-86 it gives the same verdict as Python's Unicode `str.lower` |
| Text.Find | opt/udplogger/udplogger.py:202-203 | `str.find` gives -1 exactly when the pattern does not occur, otherwise the index of its first occurrence |
| Text.SliceMeaning | opt/udplogger/udplogger.py:205 | `s[a:b]` with in-range bounds has `b - a` characters, and none when the bounds are crossed; its character `i` is character `a + i` of `s` |
| Text.ReplaceSlashes | opt/udplogger/udplogger.py:399 | `replace("/", "_")` keeps the length, turns each '/' into '_' and leaves every other character |
| Scalars.OneIsAnInt | opt/udplogger/udplogger.py:76-95 | integer text is read as an int before any bool check, so "1" is the int 1 under both `txtype` settings |
| Scalars.BoolWordsAnyCase | opt/udplogger/udplogger.py:76-95 | "true"/"false" in any letter case read as the matching bool, whatever `txtype` is |
| Scalars.EmptyAndOtherText | opt/udplogger/udplogger.py:76-107 | absent or empty text reads as "", and `settype(None)` writes ""; other non-numeric, non-bool text is kept, or is "" when `txtype` is false |
| Scalars.GettypeOrder | opt/udplogger/udplogger.py:76-95 | for any text, whatever `int()` accepts is an Int; otherwise whatever `float()` accepts is a Float; otherwise a bool word is a Bool, under both `txtype` settings |
| Scalars.SettypeRoundTrip | opt/udplogger/udplogger.py:76-107 | `gettype(settype(v)) == v` for every bool, every int (given the `Sound` facts about `int()`) and every non-empty string that is neither numeric nor a bool word |
| Scalars.GettypeThenSettype | opt/udplogger/udplogger.py:76-107 | in the other direction, text read as a string is written back unchanged, and a bool word is written back in lower case |
| Scalars.BoolWordStringsAreLost | opt/udplogger/udplogger.py:76-107 | a string that is a bool word in any case never survives the round trip: it comes back as a bool |
| Scalars.BlAgreesOnBoolWords | opt/udplogger/udplogger.py:63-95 | `bl` and `gettype` agree on the bool words |
| Codec.Find | opt/udplogger/udplogger.py:329 | a dict lookup misses exactly when the key is not among the dict's keys |
| Codec.FindHit | opt/udplogger/udplogger.py:329-330 | on a hit, the lookup returns the value of the first entry with that key, the only one in a dict |
| Codec.FindAt | opt/udplogger/udplogger.py:329-330 | conversely, the first entry with a key is what the lookup of that key returns |
| Codec.Put | opt/udplogger/udplogger.py:126 | `d[k] = v`: `k` then maps to `v` and every other key looks up exactly as before |
| Codec.PutKeys | opt/udplogger/udplogger.py:126 | `d[k] = v` keeps the key order: an existing key stays in its position, and a new key is appended at the end with its value |
| Codec.UpdateKeepsUnique | opt/udplogger/udplogger.py:128 | `d.update(other)` on a dict leaves a dict: no key appears twice |
| Codec.UpdateOne | opt/udplogger/udplogger.py:128 | updating with a one-entry dict is the same as assigning that entry |
| Codec.ParseKidsKeys | opt/udplogger/udplogger.py:121-131 | the parsed dict has unique keys: the children's distinct tags in first-occurrence order; a childless non-root node gives its own tag; a childless root gives the empty dict |
| Codec.LevelKeys | opt/udplogger/udplogger.py:124-128 | after the first `j` children the keys are the distinct tags among those children, in first-occurrence order |
| Codec.LevelStep | opt/udplogger/udplogger.py:124-128 | each child adds its contribution under its tag to the dict built so far |
| Codec.LevelLookup | opt/udplogger/udplogger.py:124-128 | after `j` children a key maps to the contribution of the last of those children tagged with it |
| Codec.ParseKidsLookup | opt/udplogger/udplogger.py:121-131 | for a node with children, each tag maps to the last same-tagged child's contribution: a nested dict when that child has children, its typed text otherwise |
| Codec.ParseKidsIsLevel | opt/udplogger/udplogger.py:121-128 | parsing a node with children is the loop run over all of them |
| Codec.TwoKids | opt/udplogger/udplogger.py:124-128 | a node with two children parses to two assignments in document order |
| Codec.MixedContentMerge | opt/udplogger/udplogger.py:124-130 | a childless child is flattened into the parent's level as `tag -> typed text`, while a child with children is nested under its tag |
| Codec.LaterDuplicateWins | opt/udplogger/udplogger.py:124-130 | of two childless children with the same tag, the later text wins |
| Codec.BuildXML | opt/udplogger/udplogger.py:153-159 | building keeps the element's tag |
| Codec.BuildKids | opt/udplogger/udplogger.py:154-157 | one child element is created per dict entry |
| Codec.BuildKidsAt | opt/udplogger/udplogger.py:154-157 | the child for entry `k` is an element tagged with that key and filled from its value |
| Codec.KidOfBuilt | opt/udplogger/udplogger.py:125-130 | a child element written from an encodable value reads back as that value |
| Codec.LevelOfBuilt | opt/udplogger/udplogger.py:124-157 | reading the first `j` written children gives back the first `j` entries of the dict |
| Codec.ParseBuilt | opt/udplogger/udplogger.py:121-157 | the children written for a non-empty encodable dict parse back to that dict |
| Codec.CodecRoundTrip | opt/udplogger/udplogger.py:121-159 | `parseKids(buildXML(root, m), isRoot=True) == m` when every nested dict is non-empty and every scalar reads back as itself |
| Codec.EmptyNestedComesBackAsText | opt/udplogger/udplogger.py:121-159 | an empty nested dict is written as an element with neither children nor text, and reads back as the string "" |
| Comment.XmlComment | opt/udplogger/udplogger.py:189-206 | when both markers occur, the comment is the slice between the end of the first `<!--` and the first `-->`; it never contains `-->` |
| Comment.FirstAt | opt/udplogger/udplogger.py:202-203 | a position with a match and no earlier match is what `find` returns |
| Comment.CommentRoundTrip | opt/udplogger/udplogger.py:189-206 | a comment placed after text without `<!--`, and itself without `-->`, is extracted exactly |
| Comment.OpenFoundAt | opt/udplogger/udplogger.py:200-202 | in a written document, `find` locates the written `<!--` when the text before it holds none |
| Comment.CloseFoundAt | opt/udplogger/udplogger.py:201-203 | in a written document, `find` locates the written `-->` when the text before it holds none |
| Comment.NoMarkersNoComment | opt/udplogger/udplogger.py:200-206 | without both markers the comment is "" |
| Comment.CloseBeforeOpen | opt/udplogger/udplogger.py:200-206 | when the first `-->` is found before the end of the first `<!--`, the comment is "" |
| Sources.MakeRecord | opt/udplogger/udplogger.py:326-349 | a built record is named by its key and starts with size 0, and a nested entry always gives a record |
| Sources.MakeRecordFields | opt/udplogger/udplogger.py:326-349 | each of ip, port, folder, time and maxsize is copied when present and defaulted to "0.0.0.0", 6309, ".", True or 1000000 when absent; a string entry gets every default exactly when it contains no field name, and any other scalar entry raises |
| Sources.WildcardAcceptsAnySender | opt/udplogger/udplogger.py:368-370 | with the wildcard ip, a datagram passes exactly when its port matches |
| Sources.OtherIpRejected | opt/udplogger/udplogger.py:368-370 | a specific ip other than the sender's rejects the datagram whatever the port |
| Sources.PortEqualsMeaning | opt/udplogger/udplogger.py:369 | the sender's int port equals an int port of the same value and `True`/`False` as 1/0; a string or dict port never equals it |
| Sources.AcceptsExactly | opt/udplogger/udplogger.py:368-370 | for a string ip and an int port, the filter accepts exactly when the sender's address is that ip or the ip is the wildcard, and the sender's port is that port |
| Sources.MatchingSenderAccepted | opt/udplogger/udplogger.py:368-370 | a datagram from the configured address (or any address with the wildcard) and the configured int port is accepted |
| Sources.DefaultFieldsBuilt | opt/udplogger/udplogger.py:173-183 | the field elements of the sample source are what `buildXML` writes for the default entries |
| Sources.DefaultDocumentIsBuilt | opt/udplogger/udplogger.py:161-183 | the written default document is `buildXML` of the one-source default configuration |
| Sources.DefaultKeysUnique | opt/udplogger/udplogger.py:174-183 | the sample source's field tags are distinct |
| Sources.DefaultsEncodable | opt/udplogger/udplogger.py:173-183 | every value of the default configuration reads back as itself |
| Sources.DefaultEntriesGiveDefaults | opt/udplogger/udplogger.py:326-349 | the sample source's entries derive exactly the record of the defaults |
| Sources.DefaultDocumentMatchesDefaults | opt/udplogger/udplogger.py:161-183 | the document written when no configuration exists parses to one source, `mylogger`, whose record is exactly the daemon's defaults |
| Rotation.Join | opt/udplogger/udplogger.py:400 | the joined path ends with the file name; an absolute name replaces the folder; otherwise the path is the folder, then a '/' exactly when the folder is non-empty and does not already end with one, then the name |
| Rotation.BasenameOfJoin | opt/udplogger/udplogger.py:400 | a name without '/' joined onto any folder is the basename of the result |
| Rotation.PyStr | opt/udplogger/udplogger.py:399 | `str(port)` succeeds for every scalar (no digit limit is modelled); a string is kept and an int's text reads back as the int |
| Rotation.FileName | opt/udplogger/udplogger.py:399 | the name can be formed exactly when ip is a string and port a scalar, and a non-string ip raises AttributeError; the name starts with `name_` and ends with `_log.txt`, and has no '/' when name and port text have none. Between them sit the ip with every '/' turned into '_', a '_', and the port's `str` text, in that order |
| Rotation.LogPath | opt/udplogger/udplogger.py:398-400 | the path can be formed exactly when the file name can and the folder is a string; it ends with the file name and with `_log.txt` |
| Rotation.LogFileInFolder | opt/udplogger/udplogger.py:398-400 | the log file is directly inside the folder: its basename is the file name |
| Rotation.GenPathInjective | opt/udplogger/udplogger.py:403-408 | different generations never name the same file |
| Rotation.Partial | opt/udplogger/udplogger.py:402-412 | the copy rounds never remove a file |
| Rotation.PartialFrame | opt/udplogger/udplogger.py:402-412 | a file that no remaining round writes keeps its presence and content |
| Rotation.PartialAt | opt/udplogger/udplogger.py:402-412 | generation `k` ends up with the old generation `k-1` when that existed, and keeps its own state when it did not |
| Rotation.CopyFile | opt/udplogger/udplogger.py:402-412 | the countdown loop computes the declarative generation shift |
| Rotation.Rotate | opt/udplogger/udplogger.py:393-396 | after the move the primary log is gone and every other file that existed still exists; an absent primary changes nothing |
| Rotation.RotationShift | opt/udplogger/udplogger.py:393-412 | rotating an existing primary leaves `.k` holding the old `.(k-1)` (so `.1` holds the old primary) when that existed, and otherwise its own old state |
| Rotation.RotationFrame | opt/udplogger/udplogger.py:393-412 | every path other than the primary and its backups keeps its presence and content |
| Rotation.MovePath | opt/udplogger/udplogger.py:393-400 | the move succeeds exactly when the log path can be formed, and leaves no file at that path |
| Logging.LogLine | opt/udplogger/udplogger.py:373-379 | the line is the time stamp when `time` is truthy, then the payload and a newline. Its length is exactly the sum of those parts, which is what the size counts |
| Logging.StampRule | opt/udplogger/udplogger.py:373-379 | `time` set to false, 0, "" or an empty dict logs the bare payload; `true`, 1 or "true" puts the stamp in front |
| Logging.Append | opt/udplogger/udplogger.py:383-384 | appending creates or extends the file so that it is exactly its old content followed by the line, with the length adding up; no other file changes |
| Logging.Exceeds | opt/udplogger/udplogger.py:389 | the size test raises exactly for a string or dict maximum; for an int maximum it is `maxsize > 0 and size > maxsize` |
| Logging.WriteLog | opt/udplogger/udplogger.py:372-391 | only the size changes. It grows by the line's length, or is reset to 0 exactly when a positive maximum was exceeded. A positive int maximum bounds the size, and a maximum of 0 or less never rotates. The line is appended to the log file in daemon mode when the path forms and the write succeeds, and printed otherwise. On every successful call the files are those after the write, rotated exactly when the maximum was exceeded, in console mode too. After a rotation `.1` holds the written file. Errors come only from the size test or the rotation's path |
| Logging.RotatedLine | opt/udplogger/udplogger.py:389-396 | after a rotation, generation 1 holds what the primary log held |
| Logging.Receive | opt/udplogger/udplogger.py:368-370 | a datagram the filter rejects changes nothing; an accepted one is logged, or raises when its payload is not UTF-8 |
| Logging.Dispatch | opt/udplogger/udplogger.py:355-362 | the loop over the ready sockets computes exactly `Pass`. The configurations are unchanged, records that receive nothing are untouched, and bounded sizes stay bounded |
| Logging.Pass | opt/udplogger/udplogger.py:358-362 | the pass over ready datagrams keeps one record per socket |
| Logging.PassOne | opt/udplogger/udplogger.py:358-362 | the datagram from socket `i` is handled by `onreceive` with `items[i]`: that record and the sink become what `Receive` makes of them, the other records stay, and an exception ends the pass |
| Logging.PassConcat | opt/udplogger/udplogger.py:358-362 | datagrams are handled in order, so a pass over `a + b` is the pass over `a` followed, unless it raised, by the pass over `b` |
| Logging.Records | opt/udplogger/udplogger.py:326-356 | the records are one per configuration entry |
| Logging.RecordsAt | opt/udplogger/udplogger.py:326-356 | record `i` is the one derived from entry `i`: named by its key, with size 0 |
| Logging.Setup | opt/udplogger/udplogger.py:326-356 | a successful start-up holds the records of all entries, in configuration order |
| Logging.SetupSucceeds | opt/udplogger/udplogger.py:326-356 | start-up succeeds exactly when every entry gives a record whose log path can be formed |
| Logging.SetupKeepsAbsent | opt/udplogger/udplogger.py:326-350 | start-up never creates a log file |
| Logging.SetupClearsLogs | opt/udplogger/udplogger.py:326-350 | after start-up no source has a file at its primary log path |
| Logging.RotateKeepsAbsent | opt/udplogger/udplogger.py:393-412 | a rotation never creates a primary log file |
| Args.Remove | opt/udplogger/udplogger.py:293 | `del argv[i]` keeps the elements before `i` and shifts the later ones down by one |
| Args.NoArguments | opt/udplogger/udplogger.py:281-301 | without arguments the capture loop starts in console mode without debugging |
| Args.SingleFlags | opt/udplogger/udplogger.py:281-301 | each flag on its own does what the usage text says: `-d`/`--debug` debug, `-s`/`--service` daemon mode, `-h`/`--help` help, `-v`/`--version` version |
| Args.DebugThenServiceRefused | opt/udplogger/udplogger.py:281-303 | `prog -d -s` is refused with the token `-s` |
| Args.FlagSwallowsNext | opt/udplogger/udplogger.py:281-303 | after a lone `-d`/`--debug`/`-s`/`--service`, any following argument (even `-h`) is skipped by the loop and then refused as the leftover token |
| Args.NoServeFromThree | opt/udplogger/udplogger.py:281-303 | with three or more elements the capture loop never starts |
| Args.ServeExactly | opt/udplogger/udplogger.py:281-303 | the capture loop starts exactly when at most one argument follows the program name and that argument is a debug or service flag; that flag sets the mode |
| Args.UsageTokenFromArgv | opt/udplogger/udplogger.py:281-303 | every refused token is an element of the command line as given |
| Args.UsageTokenGiven | opt/udplogger/udplogger.py:273-303 | `run` only ever reports an option that was on its command line |
| Args.WordsSkipped | opt/udplogger/udplogger.py:282-299 | the loop passes over plain words, leaving the list and the flags as they were |
| Args.FirstUnknownOptionRefused | opt/udplogger/udplogger.py:282-299 | an unknown option preceded only by plain words is refused with that option as the token, whatever follows it |
| Args.FirstHelpOrVersionWins | opt/udplogger/udplogger.py:282-290 | a `-h`/`--help` or `-v`/`--version` preceded only by plain words prints help or the version, whatever follows |
| Args.StrayWordsRefused | opt/udplogger/udplogger.py:282-303 | a command line of plain words after the program name is refused at the final length check, with the first word as the token |
| Args.UnknownOptionRefused | opt/udplogger/udplogger.py:282-303 | a lone argument that is none of the eight options (`-x` or a plain word) is refused with that argument |

## Left out

- Sockets, `bind`, `setblocking`, `select`, `recvfrom`, and the `kill` flag set by the signal handler are OS I/O. The capture loop is modelled as one pass over a given list of ready datagrams. The wildcard bind address (udplogger.py line 353) is not modelled; it is noted above among the places where the model follows the code.
- The XML library is a foreign library and is not modelled: `ET.parse`, `ET.tostring`, minidom pretty-printing and the header rewrite. The element tree is the abstract `Node`. The parser drops the explanatory comment that `createXML` writes, so `DefaultDocument` has none.
- `getXMLcomment` with a non-empty tag is left out, because the code only calls it with "". The file read around it is I/O: the model takes the content as a string.
- `updateXML`, `getXML`, `reload`, `/etc` path lookup, permission checks, `printHelp`, `parseError` output and every `exit` are environment-dependent. `run`'s outcomes name the exits instead.
- `run` loads the configuration before it parses the command line. The load, and the program-name bookkeeping used only in messages, are not modelled.
- `datetime.now()` formatting is a clock. The time-stamp prefix is a string parameter.
- UTF-8 decoding of a datagram is a parameter: the payload is `Option<string>`, with `None` for bytes that do not decode.
- Python's `int()` and `float()` literal grammars are floating-point and parsing detail. They are the `Numerals` parameter, and float values keep only their text and kind (`FloatVal`).
- Scalars.Sound: CPython's default limit of 4300 digits on int/str conversion is not modelled. Beyond it `int()` and `str()` raise ValueError, so `gettype` of a longer digit string does not give an int, and `Scalars.SettypeRoundTrip` and `Scalars.GettypeThenSettype` hold for ints only within that limit.
- Rotation.PyStr: for an int port of more than 4300 digits, `str(port)` raises ValueError on CPython. The model forms its text, so `Rotation.FileName` and `Rotation.LogPath` succeed where the process would end.
- `str()` of a dict-valued port is Python's repr. It is not modelled, and `Rotation.PyStr` returns `Err(ReprNotModelled)` for it.
- A failing `open`/`write` of the log file is the `writeOk` parameter. `shutil.copyfile` and `os.remove` are modelled only by their effect on the file-system map, so a copy that fails for a reason other than a missing source is not modelled.
- Sources.MakeRecord: its own contract states only the name, the size and success on nested entries; the per-field facts are stated by `Sources.MakeRecordFields`.
- Codec.BuildXML: its own contract states only that the tag is kept; what it writes is stated through `Codec.BuildKidsAt` and the round-trip lemmas.
- Codec.ParseKids, Codec.Level and Codec.Update carry no contract of their own; their keys and lookups are stated by `Codec.ParseKidsKeys`, `Codec.LevelKeys`, `Codec.ParseKidsLookup`, `Codec.LevelLookup` and `Codec.UpdateKeepsUnique`.
- Scalars.Gettype, Scalars.Settype and Scalars.Bl carry no contract of their own. `gettype` is stated by `Scalars.GettypeOrder`, `Scalars.OneIsAnInt`, `Scalars.BoolWordsAnyCase` and `Scalars.EmptyAndOtherText`. Its round trips with `settype` are stated by `Scalars.SettypeRoundTrip`, `Scalars.GettypeThenSettype` and `Scalars.BoolWordStringsAreLost`. `bl` is stated only on the bool words, by `Scalars.BlAgreesOnBoolWords`.
- Sources.Accepts and Sources.PortEquals carry no contract of their own. They are stated by `Sources.AcceptsExactly`, `Sources.PortEqualsMeaning`, `Sources.MatchingSenderAccepted`, `Sources.WildcardAcceptsAnySender`, `Sources.OtherIpRejected` and `Logging.Receive`. A float port is compared through the `FloatVal` abstraction.
- Sources.Truthy carries no contract of its own. Python's `bool()` of the `time` field is stated by `Logging.StampRule` and used by `Logging.LogLine`.
- Args.Run and Args.Scan carry no contract of their own. They are stated by `Args.NoArguments`, `Args.SingleFlags`, `Args.DebugThenServiceRefused`, `Args.FlagSwallowsNext`, `Args.ServeExactly`, `Args.UsageTokenGiven`, `Args.FirstUnknownOptionRefused`, `Args.FirstHelpOrVersionWins`, `Args.StrayWordsRefused` and `Args.UnknownOptionRefused`.
- Codec.HasKids carries no contract of its own. It is stated by `Codec.ParseKidsKeys` and `Codec.MixedContentMerge`.
- Rotation.GenPath carries no contract of its own. It is stated by `Rotation.GenPathInjective` and `Rotation.RotationShift`.
- Codec.Find: that a hit returns the first entry with the key is stated by the lemmas `Codec.FindHit` and `Codec.FindAt` rather than by its own contract. In the function's contract the fact slows down every proof that looks something up.
- Text.Slice: its own contract only names the two cases of the Python slice; what the slice holds is stated by `Text.SliceMeaning`.
- Text.Lower lowers only the ASCII capitals. Python's `str.lower` also lowers other capitals and can change the length (`"İ"` gives two characters). No non-ASCII character lowers to a character of "true", "false", "yes" or "1", so no comparison the code makes changes.
- Logging.WriteLog: an `Err` result drops what happened before the exception. The size had grown, and the line had been written to the log file or printed (lines 380-388), before the size test at line 389 raised TypeError for a string or dict maximum, or before `movePath` raised for a path it cannot form. The process ends there, so only the written file would outlast it.
- Logging.Pass and Logging.Dispatch: an `Err` result drops the effects of the datagrams handled before the one that raised.
- Logging.Setup: an `Err` result drops the rotations already done for earlier entries (line 350) before a later entry raised.
- Logging.SetupSucceeds: "exactly when" covers start-up up to the socket. `bind` at line 353 raises TypeError for a port that is not an int, or OverflowError for one out of range. That is not modelled, so a configuration that `Setup` accepts can still end the process at `bind`.

=== FILE: args.dfy ===
/** Command-line handling (`udplogger.run`).

    The loop walks `argv` with a Python `for` while deleting the consumed
    `-d`/`-s` flags from the same list. The iterator's position still moves
    on by one after a deletion, so the element that slid into the deleted
    slot is never looked at. The model keeps that behaviour.
 */
module Args {

  /** How `run` ends. */
  datatype Outcome =
    | Help                          // usage printed, exit status 0
    | Version                       // name and version printed, exit status 0
    | UsageError(token: string)     // "Invalid option entered" with the token, exit status 1
    | Serve(debug: bool, daemon: bool)  // the capture loop starts
    | Crashed                       // an empty argument or argv: IndexError

  /** `del argv[i]`. */
  function Remove(argv: seq<string>, i: nat): (r: seq<string>)
    requires i < |argv|
    ensures |r| == |argv| - 1
    ensures forall j :: 0 <= j < i ==> r[j] == argv[j]
    ensures forall j :: i <= j < |r| ==> r[j] == argv[j + 1]
  {
    argv[..i] + argv[i + 1..]
  }

  /** The loop from position `i` of the current list, with the flags seen
      so far; then the check on what is left. */
  function Scan(argv: seq<string>, i: nat, debug: bool, daemon: bool): Outcome
    decreases |argv| - i
  {
    if i >= |argv| then
      if |argv| < 2 then Serve(debug, daemon) else UsageError(argv[1])
    else
      var arg := argv[i];
      if arg == "" then Crashed
      else if arg[0] != '-' then Scan(argv, i + 1, debug, daemon)
      else if arg == "-h" || arg == "--help" then Help
      else if arg == "-v" || arg == "--version" then Version
      else if arg == "-d" || arg == "--debug" then Scan(Remove(argv, i), i + 1, true, daemon)
      else if arg == "-s" || arg == "--service" then Scan(Remove(argv, i), i + 1, debug, true)
      else UsageError(arg)
  }

  /** Python `run(argv)` up to the point where it exits or starts the
      capture loop. */
  function Run(argv: seq<string>): Outcome {
    if argv == [] then Crashed else Scan(argv, 0, false, false)
  }

  /** A program name that is not itself an option. */
  predicate PlainName(prog: string) {
    prog != "" && prog[0] != '-'
  }

  /** Without arguments the capture loop starts, echoing to the console. */
  lemma NoArguments(prog: string)
    requires PlainName(prog)
    ensures Run([prog]) == Serve(false, false)
  {
    SkipName([prog]);
  }

  /** The program name is looked at like any argument; a plain one is
      passed over. */
  lemma SkipName(argv: seq<string>)
    requires |argv| >= 1 && PlainName(argv[0])
    ensures Run(argv) == Scan(argv, 1, false, false)
  {
  }

  /** Each flag on its own does what the usage text says. */
  lemma SingleFlags(prog: string)
    requires PlainName(prog)
    ensures Run([prog, "-d"]) == Serve(true, false)
    ensures Run([prog, "--debug"]) == Serve(true, false)
    ensures Run([prog, "-s"]) == Serve(false, true)
    ensures Run([prog, "--service"]) == Serve(false, true)
    ensures Run([prog, "-h"]) == Help && Run([prog, "--help"]) == Help
    ensures Run([prog, "-v"]) == Version && Run([prog, "--version"]) == Version
  {
    FlagAlone(prog, "-d");
    FlagAlone(prog, "--debug");
    FlagAlone(prog, "-s");
    FlagAlone(prog, "--service");
    FlagAlone(prog, "-h");
    FlagAlone(prog, "--help");
    FlagAlone(prog, "-v");
    FlagAlone(prog, "--version");
  }

  /** The program name is skipped, so a lone argument decides the outcome. */
  lemma FlagAlone(prog: string, arg: string)
    requires PlainName(prog)
    ensures Run([prog, arg]) == Scan([prog, arg], 1, false, false)
    ensures arg != "" && arg[0] == '-' && (arg == "-d" || arg == "--debug" || arg == "-s" || arg == "--service") ==>
              Remove([prog, arg], 1) == [prog]
  {
    SkipName([prog, arg]);
    if arg != "" && arg[0] == '-' && (arg == "-d" || arg == "--debug" || arg == "-s" || arg == "--service") {
      assert Remove([prog, arg], 1) == [prog];
    }
  }

  /** The flag after a consumed `-d` is skipped and left in the list, so
      asking for debugging and daemon mode together is refused. */
  lemma DebugThenServiceRefused(prog: string)
    requires PlainName(prog)
    ensures Run([prog, "-d", "-s"]) == UsageError("-s")
  {
    var argv := [prog, "-d", "-s"];
    SkipName(argv);
    assert argv[1] == "-d";
    assert Remove(argv, 1) == [prog, "-s"];
    assert Scan([prog, "-s"], 2, true, false) == UsageError("-s");
  }

  /** More generally, whatever follows a lone debug or service flag is
      never examined and is refused as the leftover argument, be it another
      flag, a help request or a plain word. */
  lemma FlagSwallowsNext(prog: string, flag: string, next: string)
    requires PlainName(prog)
    requires flag in ["-d", "--debug", "-s", "--service"]
    ensures Run([prog, flag, next]) == UsageError(next)
  {
    var argv := [prog, flag, next];
    SkipName(argv);
    assert argv[1] == flag;
    assert Remove(argv, 1) == [prog, next];
  }

  /** One of the eight options `run` knows. */
  predicate KnownFlag(arg: string) {
    arg in ["-h", "--help", "-v", "--version", "-d", "--debug", "-s", "--service"]
  }

  /** A plain word: no option, and no empty argument either. */
  predicate Word(arg: string) {
    arg != "" && arg[0] != '-'
  }

  /** The loop passes over plain words without touching the list or the
      flags seen so far. */
  lemma {:induction false} WordsSkipped(argv: seq<string>, i: nat, j: nat, debug: bool, daemon: bool)
    requires i <= j <= |argv|
    requires forall k :: i <= k < j ==> Word(argv[k])
    ensures Scan(argv, i, debug, daemon) == Scan(argv, j, debug, daemon)
    decreases j - i
  {
    if i < j {
      assert Word(argv[i]);
      WordsSkipped(argv, i + 1, j, debug, daemon);
    }
  }

  /** An option the loop does not know is refused as soon as it is
      examined: when only plain words precede it, it is the token reported
      with "Invalid option entered", whatever follows it. */
  lemma FirstUnknownOptionRefused(argv: seq<string>, i: nat)
    requires 1 <= i < |argv| && PlainName(argv[0])
    requires forall k :: 1 <= k < i ==> Word(argv[k])
    requires argv[i] != "" && argv[i][0] == '-' && !KnownFlag(argv[i])
    ensures Run(argv) == UsageError(argv[i])
  {
    SkipName(argv);
    WordsSkipped(argv, 1, i, false, false);
  }

  /** A help or version request is honoured as soon as the loop reaches
      it: when only plain words precede it, `run` prints help or the
      version, whatever follows. */
  lemma FirstHelpOrVersionWins(argv: seq<string>, i: nat)
    requires 1 <= i < |argv| && PlainName(argv[0])
    requires forall k :: 1 <= k < i ==> Word(argv[k])
    ensures argv[i] in ["-h", "--help"] ==> Run(argv) == Help
    ensures argv[i] in ["-v", "--version"] ==> Run(argv) == Version
  {
    SkipName(argv);
    WordsSkipped(argv, 1, i, false, false);
  }

  /** Plain words are passed over by the loop and then make the final
      length check fail, which reports the first of them. */
  lemma StrayWordsRefused(argv: seq<string>)
    requires |argv| >= 2 && PlainName(argv[0])
    requires forall k :: 1 <= k < |argv| ==> Word(argv[k])
    ensures Run(argv) == UsageError(argv[1])
  {
    SkipName(argv);
    WordsSkipped(argv, 1, |argv|, false, false);
  }

  /** A single argument that is not one of the eight options is refused
      with that argument, be it an unknown option such as `-x` or a plain
      word. */
  lemma UnknownOptionRefused(prog: string, x: string)
    requires PlainName(prog)
    requires x != "" && !KnownFlag(x)
    ensures Run([prog, x]) == UsageError(x)
  {
    if x[0] == '-' {
      FirstUnknownOptionRefused([prog, x], 1);
    } else {
      StrayWordsRefused([prog, x]);
    }
  }

  /** With three or more elements and the program name behind it, the
      loop never starts the capture loop: a deletion at a position that is
      not yet the end still leaves at least two elements, so the final
      check refuses the list. */
  lemma {:induction false} NoServeFromThree(argv: seq<string>, i: nat, debug: bool, daemon: bool)
    requires i >= 1 && |argv| >= 3
    ensures !Scan(argv, i, debug, daemon).Serve?
    decreases |argv| - i
  {
    if i < |argv| {
      var arg := argv[i];
      if arg != "" && arg[0] == '-' && (arg == "-d" || arg == "--debug" || arg == "-s" || arg == "--service") {
        var rest := Remove(argv, i);
        var d := if arg == "-d" || arg == "--debug" then true else debug;
        var s := if arg == "-d" || arg == "--debug" then daemon else true;
        if |rest| >= 3 {
          NoServeFromThree(rest, i + 1, d, s);
        }
        assert Scan(argv, i, debug, daemon) == Scan(rest, i + 1, d, s);
      } else if arg != "" && arg[0] != '-' {
        NoServeFromThree(argv, i + 1, debug, daemon);
      }
    }
  }

  /** The capture loop starts exactly when the program name is plain and
      at most one argument follows, that argument being a debug or service
      flag; which flag it was sets the mode. */
  lemma ServeExactly(argv: seq<string>)
    requires |argv| >= 1 && PlainName(argv[0])
    ensures Run(argv).Serve? <==>
              |argv| == 1 || (|argv| == 2 && argv[1] in ["-d", "--debug", "-s", "--service"])
    ensures Run(argv).Serve? ==> Run(argv).debug == (|argv| == 2 && argv[1] in ["-d", "--debug"])
    ensures Run(argv).Serve? ==> Run(argv).daemon == (|argv| == 2 && argv[1] in ["-s", "--service"])
  {
    if |argv| >= 3 {
      NoServeFromThree(argv, 1, false, false);
    } else if |argv| == 2 {
      assert argv == [argv[0], argv[1]];
      FlagAlone(argv[0], argv[1]);
      var arg := argv[1];
      if arg != "" && arg[0] == '-' && (arg == "-d" || arg == "--debug" || arg == "-s" || arg == "--service") {
        assert Scan([argv[0]], 2, arg == "-d" || arg == "--debug", !(arg == "-d" || arg == "--debug")).Serve?;
      }
    } else {
      SkipName(argv);
    }
  }

  /** A refused token always comes from the command line as given. */
  lemma {:induction false} UsageTokenFromArgv(argv: seq<string>, i: nat, debug: bool, daemon: bool,
                                              given: seq<string>)
    requires forall j :: 0 <= j < |argv| ==> argv[j] in given
    ensures Scan(argv, i, debug, daemon).UsageError? ==> Scan(argv, i, debug, daemon).token in given
    decreases |argv| - i
  {
    if i < |argv| {
      var arg := argv[i];
      if arg != "" && arg[0] == '-' {
        if arg == "-d" || arg == "--debug" || arg == "-s" || arg == "--service" {
          var rest := Remove(argv, i);
          UsageTokenFromArgv(rest, i + 1, arg == "-d" || arg == "--debug" || debug,
                             arg == "-s" || arg == "--service" || daemon, given);
        }
      } else if arg != "" {
        UsageTokenFromArgv(argv, i + 1, debug, daemon, given);
      }
    }
  }

  /** `run` only ever reports an option that was on its command line. */
  lemma UsageTokenGiven(argv: seq<string>)
    ensures Run(argv).UsageError? ==> Run(argv).token in argv
  {
    if argv != [] {
      UsageTokenFromArgv(argv, 0, false, false, argv);
    }
  }
}

=== FILE: codec.dfy ===
/** The document-tree to mapping codec (`database.parseKids`, `hasKids`,
    `buildXML`).

    The element tree is the abstract `Node`; a Python dict is a `Mapping`,
    a sequence of entries in insertion order. `Put` is `db[k] = v`: a new
    key goes to the end, an existing key keeps its place and takes the new
    value.
 */
module Codec {
  import opened Outcomes
  import opened Scalars

  /** An XML element as ElementTree parses it (comments are dropped). */
  datatype Node = Node(tag: string, text: Option<string>, kids: seq<Node>)

  datatype Value = Leaf(scalar: Scalar) | Nested(entries: seq<Entry>)

  datatype Entry = Entry(key: string, val: Value)

  type Mapping = seq<Entry>

  function Keys(m: Mapping): (ks: seq<string>)
    ensures |ks| == |m|
  {
    if m == [] then [] else [m[0].key] + Keys(m[1..])
  }

  lemma {:induction false} KeysAt(m: Mapping, i: nat)
    requires i < |m|
    ensures Keys(m)[i] == m[i].key
  {
    if i > 0 {
      KeysAt(m[1..], i - 1);
    }
  }

  predicate NoDuplicates(s: seq<string>) {
    forall i, j :: 0 <= i < j < |s| ==> s[i] != s[j]
  }

  /** The mapping is a dict: no key appears twice. */
  predicate UniqueKeys(m: Mapping) {
    NoDuplicates(Keys(m))
  }

  /** Python `d.get(k)`. */
  function Find(m: Mapping, k: string): (r: Option<Value>)
    ensures r.None? <==> k !in Keys(m)
  {
    if m == [] then None
    else if m[0].key == k then Some(m[0].val)
    else Find(m[1..], k)
  }

  /** On a hit, `d.get(k)` gives the value of the first entry with key `k`
      (in a dict, the only one). */
  lemma {:induction false} FindHit(m: Mapping, k: string)
    ensures Find(m, k).Some? ==>
              exists i :: 0 <= i < |m| && m[i] == Entry(k, Find(m, k).value)
                          && forall j :: 0 <= j < i ==> m[j].key != k
    decreases |m|
  {
    if m != [] && m[0].key != k {
      FindHit(m[1..], k);
      if Find(m, k).Some? {
        var i :| 0 <= i < |m[1..]| && m[1..][i] == Entry(k, Find(m, k).value)
                 && forall j :: 0 <= j < i ==> m[1..][j].key != k;
        forall j | 0 <= j < i + 1
          ensures m[j].key != k
        {
          if j > 0 {
            assert m[j] == m[1..][j - 1];
          }
        }
        assert m[i + 1] == Entry(k, Find(m, k).value);
      }
    }
  }

  /** Conversely, the first entry with key `k` is what `d.get(k)` finds. */
  lemma {:induction false} FindAt(m: Mapping, k: string, i: nat)
    requires i < |m| && m[i].key == k
    requires forall j :: 0 <= j < i ==> m[j].key != k
    ensures Find(m, k) == Some(m[i].val)
    decreases i
  {
    if i > 0 {
      assert m[0].key != k;
      forall j | 0 <= j < i - 1
        ensures m[1..][j].key != k
      {
        assert m[1..][j] == m[j + 1];
      }
      FindAt(m[1..], k, i - 1);
    }
  }

  lemma FindCons(e: Entry, m: Mapping, k: string)
    ensures Find([e] + m, k) == if e.key == k then Some(e.val) else Find(m, k)
  {
    assert ([e] + m)[0] == e && ([e] + m)[1..] == m;
  }

  lemma KeysCons(e: Entry, m: Mapping)
    ensures Keys([e] + m) == [e.key] + Keys(m)
  {
  }

  /** Python `d[k] = v`. */
  function Put(m: Mapping, k: string, v: Value): (r: Mapping)
    ensures Find(r, k) == Some(v)
    ensures forall k' {:trigger Find(r, k')} :: k' != k ==> Find(r, k') == Find(m, k')
  {
    if m == [] then [Entry(k, v)]
    else if m[0].key == k then
      var r := [Entry(k, v)] + m[1..];
      assert r[0] == Entry(k, v) && r[1..] == m[1..];
      assert m == [m[0]] + m[1..];
      forall k' | k' != k
        ensures Find(r, k') == Find(m, k')
      {
        FindCons(Entry(k, v), m[1..], k');
        FindCons(m[0], m[1..], k');
      }
      r
    else
      var rest := Put(m[1..], k, v);
      PutConsFinds(m, k, v, rest);
      [m[0]] + rest
  }

  /** `d[k] = v` keeps the key order: an existing key stays where it is,
      a new key is appended with its value at the end. */
  lemma {:induction false} PutKeys(m: Mapping, k: string, v: Value)
    ensures Keys(Put(m, k, v)) == if k in Keys(m) then Keys(m) else Keys(m) + [k]
    ensures k !in Keys(m) ==> Put(m, k, v) == m + [Entry(k, v)]
    decreases |m|
  {
    if m != [] {
      if m[0].key == k {
        var r := [Entry(k, v)] + m[1..];
        assert Keys(r) == Keys(m) by {
          assert r[1..] == m[1..];
        }
      } else {
        var rest := Put(m[1..], k, v);
        assert m == [m[0]] + m[1..];
        assert Keys(m) == [m[0].key] + Keys(m[1..]) by {
          KeysCons(m[0], m[1..]);
        }
        assert Keys(Put(m, k, v)) == [m[0].key] + Keys(rest) by {
          KeysCons(m[0], rest);
        }
        PutKeys(m[1..], k, v);
      }
    }
  }

  /** `Put` past a first entry with another key: lookups in the rest carry over. */
  lemma PutConsFinds(m: Mapping, k: string, v: Value, rest: Mapping)
    requires m != [] && m[0].key != k
    requires Find(rest, k) == Some(v)
    requires forall k' {:trigger Find(rest, k')} :: k' != k ==> Find(rest, k') == Find(m[1..], k')
    ensures Find([m[0]] + rest, k) == Some(v)
    ensures forall k' {:trigger Find([m[0]] + rest, k')} :: k' != k ==> Find([m[0]] + rest, k') == Find(m, k')
  {
    assert m == [m[0]] + m[1..];
    FindCons(m[0], rest, k);
    forall k' | k' != k
      ensures Find([m[0]] + rest, k') == Find(m, k')
    {
      FindCons(m[0], rest, k');
      FindCons(m[0], m[1..], k');
    }
  }

  /** Python `d.update(other)`: `Put` of each entry of `other` in order. */
  function Update(m: Mapping, other: Mapping): Mapping
    decreases |other|
  {
    if other == [] then m
    else Update(Put(m, other[0].key, other[0].val), other[1..])
  }

  /** Updating a dict leaves a dict: no key appears twice afterwards. */
  lemma {:induction false} UpdateKeepsUnique(m: Mapping, other: Mapping)
    requires UniqueKeys(m)
    ensures UniqueKeys(Update(m, other))
    decreases |other|
  {
    if other != [] {
      var m1 := Put(m, other[0].key, other[0].val);
      PutKeys(m, other[0].key, other[0].val);
      if other[0].key !in Keys(m) {
        assert Keys(m1) == Keys(m) + [other[0].key];
      }
      UpdateKeepsUnique(m1, other[1..]);
    }
  }

  lemma UpdateOne(m: Mapping, e: Entry)
    ensures Update(m, [e]) == Put(m, e.key, e.val)
  {
    assert [e][1..] == [];
  }

  /** Python `hasKids(item)`. */
  predicate HasKids(n: Node) {
    |n.kids| > 0
  }

  /** The children's tags, in document order. */
  function Tags(kids: seq<Node>): seq<string> {
    if kids == [] then [] else Tags(kids[..|kids| - 1]) + [kids[|kids| - 1].tag]
  }

  /** The elements of `s` in order of first occurrence, each once. */
  function Distinct(s: seq<string>): (d: seq<string>)
    ensures NoDuplicates(d)
    ensures forall x :: x in d <==> x in s
  {
    if s == [] then []
    else
      var d := Distinct(s[..|s| - 1]);
      assert s == s[..|s| - 1] + [s[|s| - 1]];
      if s[|s| - 1] in d then d else d + [s[|s| - 1]]
  }

  /** Python `parseKids(item, isRoot)`. A child with children becomes a
      nested mapping under its tag; a childless child is merged into this
      level by `update` with its own one-entry mapping. */
  function ParseKids(num: Numerals, item: Node, isRoot: bool): Mapping
    decreases item, |item.kids| + 1
  {
    if HasKids(item) then Level(num, item, |item.kids|)
    else if !isRoot then [Entry(item.tag, Leaf(Gettype(num, item.text, true)))]
    else []
  }

  /** The mapping the loop over `item`'s children has built after its first
      `j` children. */
  function Level(num: Numerals, item: Node, j: nat): Mapping
    requires j <= |item.kids|
    decreases item, j
  {
    if j == 0 then []
    else
      var db := Level(num, item, j - 1);
      var kid := item.kids[j - 1];
      if HasKids(kid) then Put(db, kid.tag, KidValue(num, kid))
      else Update(db, ParseKids(num, kid, false))
  }

  /** One step of the loop over the children: `db[kid.tag] = <what kid contributes>`. */
  lemma LevelStep(num: Numerals, item: Node, j: nat)
    requires 0 < j <= |item.kids|
    ensures Level(num, item, j)
         == Put(Level(num, item, j - 1), item.kids[j - 1].tag, KidValue(num, item.kids[j - 1]))
  {
    var kid := item.kids[j - 1];
    if !HasKids(kid) {
      var one := ParseKids(num, kid, false);
      UpdateOne(Level(num, item, j - 1), one[0]);
      assert [one[0]] == one;
    }
  }

  /** After `j` children the keys are the distinct tags among them, in
      order of first appearance. */
  lemma {:induction false} LevelKeys(num: Numerals, item: Node, j: nat)
    requires j <= |item.kids|
    ensures Keys(Level(num, item, j)) == Distinct(Tags(item.kids[..j]))
    decreases j
  {
    if j > 0 {
      var kid := item.kids[j - 1];
      var prev := Level(num, item, j - 1);
      assert Keys(prev) == Distinct(Tags(item.kids[..j - 1])) by {
        LevelKeys(num, item, j - 1);
      }
      assert Level(num, item, j) == Put(prev, kid.tag, KidValue(num, kid)) by {
        LevelStep(num, item, j);
      }
      assert Tags(item.kids[..j]) == Tags(item.kids[..j - 1]) + [kid.tag] by {
        TagsStep(item.kids, j);
      }
      PutKeys(prev, kid.tag, KidValue(num, kid));
      DistinctStep(Tags(item.kids[..j - 1]), kid.tag);
    }
  }

  lemma TagsStep(kids: seq<Node>, j: nat)
    requires 0 < j <= |kids|
    ensures Tags(kids[..j]) == Tags(kids[..j - 1]) + [kids[j - 1].tag]
  {
    assert kids[..j][..j - 1] == kids[..j - 1];
  }

  lemma DistinctStep(s: seq<string>, x: string)
    ensures Distinct(s + [x]) == if x in Distinct(s) then Distinct(s) else Distinct(s) + [x]
  {
    assert (s + [x])[..|s|] == s;
  }

  /** The keys `parseKids` produces: the children's distinct tags in order
      of first appearance, the node's own tag for a childless non-root
      node, none for a childless root; never a key twice. */
  lemma ParseKidsKeys(num: Numerals, item: Node, isRoot: bool)
    ensures UniqueKeys(ParseKids(num, item, isRoot))
    ensures HasKids(item) ==> Keys(ParseKids(num, item, isRoot)) == Distinct(Tags(item.kids))
    ensures !HasKids(item) && !isRoot ==> Keys(ParseKids(num, item, isRoot)) == [item.tag]
    ensures !HasKids(item) && isRoot ==> ParseKids(num, item, isRoot) == []
  {
    if HasKids(item) {
      LevelKeys(num, item, |item.kids|);
      assert item.kids[..|item.kids|] == item.kids;
    }
  }

  /** What one child contributes under its tag. */
  function KidValue(num: Numerals, kid: Node): Value
    decreases kid, |kid.kids| + 2
  {
    if HasKids(kid) then Nested(ParseKids(num, kid, false)) else Leaf(Gettype(num, kid.text, true))
  }

  /** The value of the last child tagged `k`, if any. */
  function LastValue(num: Numerals, kids: seq<Node>, k: string): Option<Value>
    decreases |kids|
  {
    if kids == [] then None
    else if kids[|kids| - 1].tag == k then Some(KidValue(num, kids[|kids| - 1]))
    else LastValue(num, kids[..|kids| - 1], k)
  }

  lemma {:induction false} LevelLookup(num: Numerals, item: Node, j: nat, k: string)
    requires j <= |item.kids|
    ensures Find(Level(num, item, j), k) == LastValue(num, item.kids[..j], k)
    decreases j
  {
    if j > 0 {
      LevelStep(num, item, j);
      LevelLookup(num, item, j - 1, k);
      LookupStep(num, item.kids, j, k, Level(num, item, j - 1), Level(num, item, j));
    } else {
      assert item.kids[..j] == [];
    }
  }

  /** One child more: its assignment decides the lookup of its own tag,
      and leaves every other lookup as the earlier children made it. */
  lemma LookupStep(num: Numerals, kids: seq<Node>, j: nat, k: string, prev: Mapping, cur: Mapping)
    requires 0 < j <= |kids|
    requires cur == Put(prev, kids[j - 1].tag, KidValue(num, kids[j - 1]))
    requires Find(prev, k) == LastValue(num, kids[..j - 1], k)
    ensures Find(cur, k) == LastValue(num, kids[..j], k)
  {
    LastValueStep(num, kids, j, k);
    FindAfterPut(prev, kids[j - 1].tag, KidValue(num, kids[j - 1]), k, LastValue(num, kids[..j - 1], k));
  }

  /** One child more decides the lookup of its own tag only. */
  lemma LastValueStep(num: Numerals, kids: seq<Node>, j: nat, k: string)
    requires 0 < j <= |kids|
    ensures LastValue(num, kids[..j], k)
         == if kids[j - 1].tag == k then Some(KidValue(num, kids[j - 1])) else LastValue(num, kids[..j - 1], k)
  {
    assert kids[..j][..j - 1] == kids[..j - 1];
  }

  /** A lookup after `d[t] = v` sees `v` for `t` and what it saw before
      for any other key. */
  lemma FindAfterPut(m: Mapping, t: string, v: Value, k: string, before: Option<Value>)
    requires Find(m, k) == before
    ensures Find(Put(m, t, v), k) == if t == k then Some(v) else before
  {
  }

  /** The merge policy of `parseKids`: at a node with children, each tag
      holds what the LAST child with that tag contributes (a nested
      mapping if it has children, its typed text if not). */
  lemma ParseKidsLookup(num: Numerals, item: Node, isRoot: bool, k: string)
    requires HasKids(item)
    ensures Find(ParseKids(num, item, isRoot), k) == LastValue(num, item.kids, k)
  {
    LevelLookup(num, item, |item.kids|, k);
    assert item.kids[..|item.kids|] == item.kids;
  }

  lemma ParseKidsIsLevel(num: Numerals, item: Node, isRoot: bool)
    requires HasKids(item)
    ensures ParseKids(num, item, isRoot) == Level(num, item, |item.kids|)
  {
    assert item.kids[..|item.kids|] == item.kids;
  }

  /** Reading a node with two children is two `db[tag] = ...` steps. */
  lemma TwoKids(num: Numerals, n: Node, isRoot: bool)
    requires |n.kids| == 2
    ensures ParseKids(num, n, isRoot)
         == Put(Put([], n.kids[0].tag, KidValue(num, n.kids[0])), n.kids[1].tag, KidValue(num, n.kids[1]))
  {
    LevelStep(num, n, 1);
    LevelStep(num, n, 2);
    ParseKidsIsLevel(num, n, isRoot);
  }

  /** A node with one leaf child and one container child produces both:
      the leaf flattened to its typed text, the container nested. */
  lemma MixedContentMerge(num: Numerals, tag: string, text: Option<string>,
                          leaf: Node, box: Node, isRoot: bool)
    requires !HasKids(leaf) && HasKids(box) && leaf.tag != box.tag
    ensures ParseKids(num, Node(tag, text, [leaf, box]), isRoot)
         == [Entry(leaf.tag, Leaf(Gettype(num, leaf.text, true))),
             Entry(box.tag, Nested(ParseKids(num, box, false)))]
  {
    var e1 := Entry(leaf.tag, Leaf(Gettype(num, leaf.text, true)));
    var e2 := Entry(box.tag, Nested(ParseKids(num, box, false)));
    assert ParseKids(num, Node(tag, text, [leaf, box]), isRoot)
        == Put(Put([], leaf.tag, e1.val), box.tag, e2.val) by {
      TwoKids(num, Node(tag, text, [leaf, box]), isRoot);
    }
    assert Put([], leaf.tag, e1.val) == [e1];
    assert Put([e1], box.tag, e2.val) == [e1, e2] by {
      assert Keys([e1]) == [leaf.tag];
    }
  }

  /** Among childless children with the same tag, the later one's text wins. */
  lemma LaterDuplicateWins(num: Numerals, tag: string, text: Option<string>,
                           first: Node, second: Node, isRoot: bool)
    requires !HasKids(first) && !HasKids(second) && first.tag == second.tag
    ensures ParseKids(num, Node(tag, text, [first, second]), isRoot)
         == [Entry(first.tag, Leaf(Gettype(num, second.text, true)))]
  {
    var n := Node(tag, text, [first, second]);
    LevelStep(num, n, 1);
    LevelStep(num, n, 2);
  }

  /** Python `buildXML(xmltree, item)`: a dict appends one sub-element per
      entry, in order; anything else becomes the element's text. */
  function BuildXML(tree: Node, item: Value): (r: Node)
    ensures r.tag == tree.tag
    decreases item, Width(item)
  {
    match item
    case Leaf(s) => tree.(text := Some(Settype(Some(s))))
    case Nested(m) => tree.(kids := tree.kids + BuildKids(item, 0))
  }

  function Width(item: Value): nat {
    if item.Nested? then |item.entries| + 1 else 0
  }

  /** The sub-elements `buildXML` appends for the entries of `item` from
      index `i` on: a fresh element tagged with the key, filled by `buildXML`. */
  function BuildKids(item: Value, i: nat): (kids: seq<Node>)
    requires item.Nested? && i <= |item.entries|
    ensures |kids| == |item.entries| - i
    decreases item, |item.entries| - i
  {
    if i == |item.entries| then []
    else [BuildXML(Node(item.entries[i].key, None, []), item.entries[i].val)] + BuildKids(item, i + 1)
  }

  lemma {:induction false} BuildKidsAt(item: Value, i: nat, k: nat)
    requires item.Nested? && i <= k < |item.entries|
    ensures BuildKids(item, i)[k - i] == BuildXML(Node(item.entries[k].key, None, []), item.entries[k].val)
    decreases k - i
  {
    if i < k {
      BuildKidsAt(item, i + 1, k);
    }
  }

  /** Mappings that survive the trip through the tree: keys are unique,
      nested mappings are non-empty and every scalar reads back as itself. */
  predicate Encodable(num: Numerals, m: Mapping)
    decreases m
  {
    && UniqueKeys(m)
    && forall i :: 0 <= i < |m| ==> EncodableValue(num, m[i].val)
  }

  predicate EncodableValue(num: Numerals, v: Value)
    decreases v
  {
    match v
    case Leaf(s) => Gettype(num, Some(Settype(Some(s))), true) == s
    case Nested(m) => |m| > 0 && Encodable(num, m)
  }

  lemma PrefixStep<T>(s: seq<T>, j: nat)
    requires 0 < j <= |s|
    ensures s[..j] == s[..j - 1] + [s[j - 1]]
  {
  }

  /** In a dict, a key does not occur before its own position. */
  lemma FreshKey(m: Mapping, j: nat)
    requires UniqueKeys(m) && j < |m|
    ensures m[j].key !in Keys(m[..j])
  {
    if m[j].key in Keys(m[..j]) {
      var i :| 0 <= i < j && Keys(m[..j])[i] == m[j].key;
      KeysAt(m[..j], i);
      KeysAt(m, i);
      KeysAt(m, j);
      assert false;
    }
  }

  /** One element written by `BuildXML` reads back as the value it was
      written from. */
  lemma {:induction false} KidOfBuilt(num: Numerals, key: string, val: Value)
    requires EncodableValue(num, val)
    ensures KidValue(num, BuildXML(Node(key, None, []), val)) == val
    decreases val, if val.Nested? then |val.entries| + 1 else 0
  {
    var kid := BuildXML(Node(key, None, []), val);
    match val
    case Leaf(s) =>
      assert kid == Node(key, Some(Settype(Some(s))), []);
    case Nested(sub) =>
      assert kid.kids == BuildKids(val, 0);
      LevelOfBuilt(num, kid, val, |sub|);
      assert sub[..|sub|] == sub;
      assert kid.kids[..|sub|] == kid.kids;
  }

  lemma {:induction false} LevelOfBuilt(num: Numerals, n: Node, v: Value, j: nat)
    requires v.Nested? && Encodable(num, v.entries) && n.kids == BuildKids(v, 0)
    requires j <= |v.entries|
    ensures Level(num, n, j) == v.entries[..j]
    decreases v, j
  {
    var m := v.entries;
    if j > 0 {
      var e := m[j - 1];
      var kid := n.kids[j - 1];
      assert kid == BuildXML(Node(e.key, None, []), e.val) by {
        BuildKidsAt(v, 0, j - 1);
      }
      assert KidValue(num, kid) == e.val by {
        assert EncodableValue(num, e.val);
        KidOfBuilt(num, e.key, e.val);
      }
      assert Level(num, n, j - 1) == m[..j - 1] by {
        LevelOfBuilt(num, n, v, j - 1);
      }
      assert Put(m[..j - 1], e.key, e.val) == m[..j] by {
        FreshKey(m, j - 1);
        PutKeys(m[..j - 1], e.key, e.val);
        PrefixStep(m, j);
      }
      assert Level(num, n, j) == Put(Level(num, n, j - 1), e.key, e.val) by {
        LevelStep(num, n, j);
      }
    }
  }

  lemma {:induction false} ParseBuilt(num: Numerals, n: Node, m: Mapping)
    requires |m| > 0 && Encodable(num, m) && n.kids == BuildKids(Nested(m), 0)
    ensures ParseKids(num, n, true) == m
  {
    LevelOfBuilt(num, n, Nested(m), |m|);
    assert m[..|m|] == m;
  }

  /** The codec round trip: writing a mapping under a fresh root and reading
      the root back gives the mapping again. */
  lemma CodecRoundTrip(num: Numerals, root: Node, m: Mapping)
    requires root.kids == []
    requires Encodable(num, m)
    ensures ParseKids(num, BuildXML(root, Nested(m)), true) == m
  {
    var n := BuildXML(root, Nested(m));
    assert n.kids == BuildKids(Nested(m), 0);
    if |m| > 0 {
      ParseBuilt(num, n, m);
    }
  }

  /** An empty nested mapping does not survive: its element has neither
      children nor text, so it reads back as the empty string. */
  lemma EmptyNestedComesBackAsText(num: Numerals, root: Node, k: string)
    requires root.kids == []
    ensures ParseKids(num, BuildXML(root, Nested([Entry(k, Nested([]))])), true)
         == [Entry(k, Leaf(Str("")))]
  {
    var v := Nested([Entry(k, Nested([]))]);
    var n := BuildXML(root, v);
    assert BuildXML(Node(k, None, []), Nested([])) == Node(k, None, []) by {
      assert BuildKids(Nested([]), 0) == [];
    }
    assert n.kids == [Node(k, None, [])] by {
      assert BuildKids(v, 1) == [];
      assert BuildKids(v, 0) == [Node(k, None, [])];
    }
    LevelStep(num, n, 1);
  }
}

=== FILE: comment.dfy ===
/** The leading comment of the configuration document
    (`database.getXMLcomment` with an empty tag, its only use).

    The file's content is a parameter; the result is the text between the
    first "<!--" and the first "-->", with Python's slice semantics.
 */
module Comment {
  import opened Text

  const OPEN: string := "<!--"
  const CLOSE: string := "-->"

  /** Python `getXMLcomment("")` applied to the file's content. */
  function XmlComment(content: string): (c: string)
    ensures Contains(content, OPEN) && Contains(content, CLOSE)
            && Find(content, OPEN) + |OPEN| <= Find(content, CLOSE)
            ==> c == content[Find(content, OPEN) + |OPEN|..Find(content, CLOSE)]
    ensures !Contains(c, CLOSE)
  {
    var begin := Find(content, OPEN);
    var end := Find(content, CLOSE);
    if begin > -1 && end > -1 then
      var c := Slice(content, begin + |OPEN|, end);
      assert !Contains(c, CLOSE) by {
        if Contains(c, CLOSE) {
          var i: nat :| i <= |c| && MatchAt(c, CLOSE, i);
          assert begin + |OPEN| <= end;
          assert c == content[begin + |OPEN|..end];
          MatchInSlice(content, begin + |OPEN|, end, CLOSE, i);
          assert false;
        }
      }
      c
    else ""
  }

  /** An occurrence inside a prefix is an occurrence in the whole string. */
  lemma MatchInPrefix(s: string, t: string, pat: string, i: nat)
    requires MatchAt(s + t, pat, i) && i + |pat| <= |s|
    ensures MatchAt(s, pat, i)
  {
    assert (s + t)[i..i + |pat|] == s[i..i + |pat|];
  }

  lemma {:induction false} FirstAt(s: string, pat: string, at: nat)
    requires MatchAt(s, pat, at)
    requires forall i: nat :: i < at ==> !MatchAt(s, pat, i)
    ensures Find(s, pat) == at
  {
    assert Contains(s, pat);
  }

  /** The comment written between the markers is the comment read back,
      when nothing before it looks like a marker and it does not itself
      contain the closing marker. */
  lemma CommentRoundTrip(pre: string, c: string, post: string)
    requires !Contains(pre + "<!-", OPEN)
    requires !Contains(pre + OPEN + c + "--", CLOSE)
    ensures XmlComment(pre + OPEN + c + CLOSE + post) == c
  {
    var s := pre + OPEN + c + CLOSE + post;
    var b := |pre|;
    var e := |pre| + |OPEN| + |c|;
    assert Find(s, OPEN) == b by {
      OpenFoundAt(pre, c, post);
    }
    assert Find(s, CLOSE) == e by {
      CloseFoundAt(pre, c, post);
    }
    assert s[b + |OPEN|..e] == c;
  }

  /** The first opening marker is the written one. */
  lemma OpenFoundAt(pre: string, c: string, post: string)
    requires !Contains(pre + "<!-", OPEN)
    ensures Find(pre + OPEN + c + CLOSE + post, OPEN) == |pre|
  {
    var s := pre + OPEN + c + CLOSE + post;
    var b := |pre|;
    assert s[b..b + |OPEN|] == OPEN;
    forall i: nat | i < b ensures !MatchAt(s, OPEN, i) {
      if MatchAt(s, OPEN, i) {
        assert s == (pre + "<!-") + ("-" + c + CLOSE + post);
        MatchInPrefix(pre + "<!-", "-" + c + CLOSE + post, OPEN, i);
        assert false;
      }
    }
    FirstAt(s, OPEN, b);
  }

  /** The first closing marker is the written one. */
  lemma CloseFoundAt(pre: string, c: string, post: string)
    requires !Contains(pre + OPEN + c + "--", CLOSE)
    ensures Find(pre + OPEN + c + CLOSE + post, CLOSE) == |pre| + |OPEN| + |c|
  {
    var s := pre + OPEN + c + CLOSE + post;
    var e := |pre| + |OPEN| + |c|;
    assert s[e..e + |CLOSE|] == CLOSE;
    forall i: nat | i < e ensures !MatchAt(s, CLOSE, i) {
      if MatchAt(s, CLOSE, i) {
        assert s == (pre + OPEN + c + "--") + (">" + post);
        MatchInPrefix(pre + OPEN + c + "--", ">" + post, CLOSE, i);
        assert false;
      }
    }
    FirstAt(s, CLOSE, e);
  }

  /** Without both markers there is no comment. */
  lemma NoMarkersNoComment(content: string)
    requires !Contains(content, OPEN) || !Contains(content, CLOSE)
    ensures XmlComment(content) == ""
  {
  }

  /** A closing marker before the opening one gives the empty slice. */
  lemma CloseBeforeOpen(content: string)
    requires Contains(content, OPEN) && Contains(content, CLOSE)
    requires Find(content, CLOSE) < Find(content, OPEN) + |OPEN|
    ensures XmlComment(content) == ""
  {
  }
}

=== FILE: logging.dfy ===
/** Logging one datagram (`udplogger.writelog`, `onreceive`), one round of
    the capture loop, and the start-up pass over the configuration
    (`udplogger.daemon` before its loop).

    Sockets are not modelled: the configuration's i-th entry gives the
    i-th record, and the i-th socket delivers to that record, so a datagram
    names its source by index.
 */
module Logging {
  import opened Outcomes
  import opened Text
  import opened Scalars
  import opened Codec
  import opened Sources
  import opened Rotation

  /** Where lines end up: the files, and standard output. */
  datatype Sink = Sink(fs: FileSystem, console: string)

  /** A source's record with the sink, after some logging. */
  datatype State = State(rec: Record, sink: Sink)

  /** The text logged for one payload: the time stamp when the source asks
      for one, the payload, and a newline. The stamp stands for the three
      formatted fields of `datetime.now()`, each followed by ", ". */
  function LogLine(r: Record, payload: string, stamp: string): (line: string)
    ensures EndsWith(line, payload + "\n")
    ensures Truthy(r.time) ==> StartsWith(line, stamp)
    ensures !Truthy(r.time) ==> line == payload + "\n"
    ensures |line| == (if Truthy(r.time) then |stamp| else 0) + |payload| + 1
  {
    var line := (if Truthy(r.time) then stamp else "") + payload + "\n";
    assert line[|line| - |payload + "\n"|..] == payload + "\n";
    line
  }

  /** Which `time` settings stamp a line: Python's truthiness of the field.
      `false`, 0 and the empty text log the bare payload; `true`, as in the
      default document, puts the stamp in front. */
  lemma StampRule(r: Record, payload: string, stamp: string)
    ensures r.time in [Leaf(Bool(false)), Leaf(Int(0)), Leaf(Str("")), Nested([])] ==>
              LogLine(r, payload, stamp) == payload + "\n"
    ensures r.time in [Leaf(Bool(true)), Leaf(Int(1)), Leaf(Str("true"))] ==>
              LogLine(r, payload, stamp) == stamp + payload + "\n"
  {
  }

  /** Opening a file with mode "a" and writing: the file is created when
      missing and `line` goes at its end. */
  function Append(fs: FileSystem, p: string, line: string): (r: FileSystem)
    ensures p in r && EndsWith(r[p], line)
    ensures p in fs ==> StartsWith(r[p], fs[p])
    ensures |r[p]| == (if p in fs then |fs[p]| else 0) + |line|
    ensures forall q :: q != p ==> (q in r <==> q in fs) && (q in fs ==> r[q] == fs[q])
  {
    var old_ := if p in fs then fs[p] else "";
    assert (old_ + line)[..|old_|] == old_;
    assert (old_ + line)[|old_ + line| - |line|..] == line;
    fs[p := old_ + line]
  }

  /** Python `(maxsize > 0) and (size > maxsize)` for an int `size`: bools
      compare as 0 and 1, strings and dicts raise TypeError. */
  function Exceeds(size: int, maxsize: Value): (r: Result<bool>)
    ensures r.Ok? <==> maxsize.Leaf? && !maxsize.scalar.Str?
    ensures maxsize.Leaf? && maxsize.scalar.Int? ==>
              r == Ok(maxsize.scalar.i > 0 && size > maxsize.scalar.i)
    ensures r == Ok(true) ==> !(maxsize.Leaf? && maxsize.scalar.Float? && maxsize.scalar.f.kind.NaN?)
  {
    match maxsize
    case Leaf(Int(m)) => Ok(m > 0 && size > m)
    case Leaf(Bool(b)) => var m := if b then 1 else 0; Ok(m > 0 && size > m)
    case Leaf(Float(f)) => Ok(f.Positive() && f.ExceededBy(size))
    case _ => Err(TypeError)
  }

  /** Python `writelog(buf, item)`. The size grows by the line's length in
      characters. In daemon mode the line is appended to the source's log
      file; if the path cannot be formed or the write fails (`writeOk`
      false) the exception is swallowed and the line goes to standard
      output, as it always does outside daemon mode. Then, when the size
      exceeds a positive maximum, the size is reset and the log file is
      rotated; there a bad path is no longer caught. */
  function WriteLog(r: Record, payload: string, stamp: string, daemonMode: bool,
                    writeOk: bool, sink: Sink): (out: Result<State>)
    // logging changes only the size; the configuration is kept
    ensures out.Ok? ==> out.value.rec == r.(size := out.value.rec.size)
    // the size either grew by the line, or the maximum was exceeded and it was reset
    ensures var grown := r.size + |LogLine(r, payload, stamp)|;
            out.Ok? ==> ((Exceeds(grown, r.maxsize) == Ok(false) && out.value.rec.size == grown)
                         || (Exceeds(grown, r.maxsize) == Ok(true) && out.value.rec.size == 0))
    // a positive int maximum bounds the size after every call
    ensures r.maxsize.Leaf? && r.maxsize.scalar.Int? && r.maxsize.scalar.i > 0 && out.Ok? ==>
              out.value.rec.size <= r.maxsize.scalar.i
    ensures r.maxsize.Leaf? && r.maxsize.scalar.Int? && r.maxsize.scalar.i > 0 && r.size >= 0 && out.Ok? ==>
              0 <= out.value.rec.size
    // a maximum of zero or less never rotates and never fails
    ensures r.maxsize.Leaf? && r.maxsize.scalar.Int? && r.maxsize.scalar.i <= 0 ==>
              out.Ok? && out.value.rec.size == r.size + |LogLine(r, payload, stamp)|
    // a string or dict maximum cannot be compared with the size
    ensures r.maxsize.Nested? || (r.maxsize.Leaf? && r.maxsize.scalar.Str?) ==> out == Err(TypeError)
    // the line goes to the log file, or to standard output when it cannot be written there
    ensures out.Ok? ==>
              out.value.sink.console
              == if daemonMode && LogPath(r).Ok? && writeOk then sink.console
                 else sink.console + LogLine(r, payload, stamp)
    // the files are those after the write, rotated exactly when the maximum was exceeded
    ensures out.Ok? ==>
              var written := if daemonMode && LogPath(r).Ok? && writeOk
                             then Append(sink.fs, LogPath(r).value, LogLine(r, payload, stamp))
                             else sink.fs;
              if Exceeds(r.size + |LogLine(r, payload, stamp)|, r.maxsize) == Ok(true)
              then LogPath(r).Ok? && out.value.sink.fs == Rotate(written, LogPath(r).value)
              else out.value.sink.fs == written
    // a rotation moves the file just written, line included, to generation 1
    ensures out.Ok? && Exceeds(r.size + |LogLine(r, payload, stamp)|, r.maxsize) == Ok(true)
            && daemonMode && LogPath(r).Ok? && writeOk ==>
              var p := LogPath(r).value;
              p !in out.value.sink.fs
              && GenPath(p, 1) in out.value.sink.fs
              && out.value.sink.fs[GenPath(p, 1)] == Append(sink.fs, p, LogLine(r, payload, stamp))[p]
    // an error arises only from the maximum or from the rotation's path
    ensures out.Err? ==> (Exceeds(r.size + |LogLine(r, payload, stamp)|, r.maxsize).Err?
                          || (Exceeds(r.size + |LogLine(r, payload, stamp)|, r.maxsize) == Ok(true)
                              && LogPath(r).Err?))
  {
    var line := LogLine(r, payload, stamp);
    var grown := r.(size := r.size + |line|);
    assert LogPath(grown) == LogPath(r) by {
      assert FileName(grown) == FileName(r);
    }
    var written :=
      if daemonMode && LogPath(grown).Ok? && writeOk
      then sink.(fs := Append(sink.fs, LogPath(grown).value, line))
      else sink.(console := sink.console + line);
    var over :- Exceeds(grown.size, grown.maxsize);
    if over then
      var fs :- MovePath(written.fs, grown);
      RotatedLine(written.fs, grown);
      Ok(State(grown.(size := 0), written.(fs := fs)))
    else
      Ok(State(grown, written))
  }

  /** After a rotation, generation 1 holds what the primary held. */
  lemma RotatedLine(fs: FileSystem, r: Record)
    requires LogPath(r).Ok?
    ensures var p := LogPath(r).value;
            p in fs ==> GenPath(p, 1) in MovePath(fs, r).value
                        && MovePath(fs, r).value[GenPath(p, 1)] == fs[p]
  {
    var p := LogPath(r).value;
    if p in fs {
      RotationShift(fs, p, 1);
    }
  }

  /** Python `onreceive(buf, item)`: a datagram from the configured sender
      is logged; any other leaves everything as it was. A payload that is
      not valid UTF-8 (`None`) raises while being decoded. */
  function Receive(r: Record, senderIp: string, senderPort: int, payload: Option<string>,
                   stamp: string, daemonMode: bool, writeOk: bool, sink: Sink): (out: Result<State>)
    ensures !Accepts(r, senderIp, senderPort) ==> out == Ok(State(r, sink))
    ensures Accepts(r, senderIp, senderPort) && payload.None? ==> out == Err(DecodeError)
    ensures Accepts(r, senderIp, senderPort) && payload.Some? ==>
              out == WriteLog(r, payload.value, stamp, daemonMode, writeOk, sink)
    ensures out.Ok? ==> out.value.rec == r.(size := out.value.rec.size)
  {
    if !Accepts(r, senderIp, senderPort) then Ok(State(r, sink))
    else if payload.None? then Err(DecodeError)
    else WriteLog(r, payload.value, stamp, daemonMode, writeOk, sink)
  }

  /** One datagram handed out by `select`: the index of the socket it came
      in on, its sender, its payload (`None` when not valid UTF-8), the time
      stamp at its arrival and whether writing its log file succeeds. */
  datatype Datagram = Datagram(index: nat, senderIp: string, senderPort: int,
                               payload: Option<string>, stamp: string, writeOk: bool)

  /** The records differ at most in their sizes. */
  predicate SameConfiguration(a: seq<Record>, b: seq<Record>) {
    |a| == |b| && forall i :: 0 <= i < |a| ==> b[i] == a[i].(size := b[i].size)
  }

  /** The size of a record with a positive int maximum stays within it. */
  predicate Bounded(r: Record) {
    r.maxsize.Leaf? && r.maxsize.scalar.Int? && r.maxsize.scalar.i > 0 ==>
      0 <= r.size <= r.maxsize.scalar.i
  }

  /** The pass over the ready sockets as a fold: each datagram in turn
      goes through `Receive` with the record of the socket it arrived on,
      and the first exception ends the pass. */
  function Pass(items: seq<Record>, ready: seq<Datagram>, daemonMode: bool, sink: Sink)
    : (out: Result<(seq<Record>, Sink)>)
    requires forall k :: 0 <= k < |ready| ==> ready[k].index < |items|
    ensures out.Ok? ==> |out.value.0| == |items|
    decreases |ready|
  {
    if ready == [] then Ok((items, sink))
    else
      var d := ready[0];
      var step :- Receive(items[d.index], d.senderIp, d.senderPort, d.payload, d.stamp,
                          daemonMode, d.writeOk, sink);
      Pass(items[d.index := step.rec], ready[1..], daemonMode, step.sink)
  }

  /** One datagram is handed to the record of its socket: that record and
      the sink become what `Receive` makes of them, the other records stay. */
  lemma PassOne(items: seq<Record>, d: Datagram, daemonMode: bool, sink: Sink)
    requires d.index < |items|
    ensures var step := Receive(items[d.index], d.senderIp, d.senderPort, d.payload, d.stamp,
                                daemonMode, d.writeOk, sink);
            Pass(items, [d], daemonMode, sink)
            == if step.Err? then Err(step.fault)
               else Ok((items[d.index := step.value.rec], step.value.sink))
  {
    assert [d][0] == d && [d][1..] == [];
  }

  /** Datagrams are handled one after the other: a pass over `a + b` is the
      pass over `a` followed, unless it failed, by the pass over `b`. */
  lemma {:induction false} PassConcat(items: seq<Record>, a: seq<Datagram>, b: seq<Datagram>,
                                      daemonMode: bool, sink: Sink)
    requires forall k :: 0 <= k < |a + b| ==> (a + b)[k].index < |items|
    ensures forall k :: 0 <= k < |a| ==> a[k].index < |items|
    ensures Pass(items, a, daemonMode, sink).Err? ==>
              Pass(items, a + b, daemonMode, sink) == Pass(items, a, daemonMode, sink)
    ensures Pass(items, a, daemonMode, sink).Ok? ==>
              (forall k :: 0 <= k < |b| ==> b[k].index < |Pass(items, a, daemonMode, sink).value.0|)
              && Pass(items, a + b, daemonMode, sink)
                 == Pass(Pass(items, a, daemonMode, sink).value.0, b, daemonMode,
                         Pass(items, a, daemonMode, sink).value.1)
    decreases |a|
  {
    forall k | 0 <= k < |a| ensures a[k].index < |items| {
      assert (a + b)[k] == a[k];
    }
    forall k | 0 <= k < |b| ensures b[k].index < |items| {
      assert (a + b)[|a| + k] == b[k];
    }
    if a == [] {
      assert a + b == b;
    } else {
      var d := a[0];
      assert (a + b)[0] == d && (a + b)[1..] == a[1..] + b;
      var step := Receive(items[d.index], d.senderIp, d.senderPort, d.payload, d.stamp,
                          daemonMode, d.writeOk, sink);
      if step.Ok? {
        PassConcat(items[d.index := step.value.rec], a[1..], b, daemonMode, step.value.sink);
      }
    }
  }

  /** One pass of the capture loop over the sockets `select` reported
      ready: each datagram goes to the record of the socket it arrived on.
      An exception ends the process. */
  method Dispatch(items: seq<Record>, ready: seq<Datagram>, daemonMode: bool, sink: Sink)
    returns (out: Result<(seq<Record>, Sink)>)
    requires forall k :: 0 <= k < |ready| ==> ready[k].index < |items|
    ensures out == Pass(items, ready, daemonMode, sink)
    ensures out.Ok? ==> SameConfiguration(items, out.value.0)
    ensures out.Ok? ==> forall i :: 0 <= i < |items| && (forall k :: 0 <= k < |ready| ==> ready[k].index != i)
                           ==> out.value.0[i] == items[i]
    ensures out.Ok? ==> forall i :: 0 <= i < |items| && Bounded(items[i]) ==> Bounded(out.value.0[i])
  {
    var cur := items;
    var s := sink;
    var k := 0;
    while k < |ready|
      invariant 0 <= k <= |ready|
      invariant SameConfiguration(items, cur)
      invariant forall i :: 0 <= i < |items| && (forall j :: 0 <= j < k ==> ready[j].index != i)
                  ==> cur[i] == items[i]
      invariant forall i :: 0 <= i < |items| && Bounded(items[i]) ==> Bounded(cur[i])
      invariant Pass(items, ready, daemonMode, sink) == Pass(cur, ready[k..], daemonMode, s)
    {
      var d := ready[k];
      assert ready[k..][0] == d && ready[k..][1..] == ready[k + 1..];
      var step := Receive(cur[d.index], d.senderIp, d.senderPort, d.payload, d.stamp,
                          daemonMode, d.writeOk, s);
      if step.Err? {
        return Err(step.fault);
      }
      cur := cur[d.index := step.value.rec];
      s := step.value.sink;
      k := k + 1;
    }
    return Ok((cur, s));
  }

  /** What the daemon holds once every source is set up. */
  datatype Startup = Startup(items: seq<Record>, fs: FileSystem)

  /** A configuration entry the start-up pass gets through. */
  predicate Startable(e: Entry) {
    MakeRecord(e.key, e.val).Ok? && LogPath(MakeRecord(e.key, e.val).value).Ok?
  }

  /** The records of the configuration's entries, in order; the first
      entry that gives no record raises. */
  function Records(db: Mapping): (r: Result<seq<Record>>)
    ensures r.Ok? ==> |r.value| == |db|
    decreases |db|
  {
    if db == [] then Ok([])
    else
      var rec :- MakeRecord(db[0].key, db[0].val);
      var rest :- Records(db[1..]);
      Ok([rec] + rest)
  }

  /** Record i is the one derived from entry i, with a size of 0. */
  lemma {:induction false} RecordsAt(db: Mapping, i: nat)
    requires Records(db).Ok? && i < |db|
    ensures MakeRecord(db[i].key, db[i].val) == Ok(Records(db).value[i])
    ensures Records(db).value[i].name == db[i].key && Records(db).value[i].size == 0
    decreases i
  {
    if i > 0 {
      RecordsAt(db[1..], i - 1);
      assert db[1..][i - 1] == db[i];
    }
  }

  /** The start-up pass of `daemon`: for each configuration entry in
      order, derive its record and rotate away the log file left from an
      earlier run. Any exception ends the process. */
  function Setup(db: Mapping, fs: FileSystem): (r: Result<Startup>)
    ensures r.Ok? ==> Records(db) == Ok(r.value.items)
    decreases |db|
  {
    if db == [] then Ok(Startup([], fs))
    else
      var rec :- MakeRecord(db[0].key, db[0].val);
      var fs1 :- MovePath(fs, rec);
      var rest :- Setup(db[1..], fs1);
      Ok(Startup([rec] + rest.items, rest.fs))
  }

  /** Start-up gets through exactly when every entry gives a record whose
      log path can be formed. */
  lemma {:induction false} SetupSucceeds(db: Mapping, fs: FileSystem)
    ensures Setup(db, fs).Ok? <==> forall i :: 0 <= i < |db| ==> Startable(db[i])
    decreases |db|
  {
    if db != [] && Startable(db[0]) {
      var fs1 := MovePath(fs, MakeRecord(db[0].key, db[0].val).value).value;
      SetupSucceeds(db[1..], fs1);
      if forall i :: 0 <= i < |db| ==> Startable(db[i]) {
        forall j | 0 <= j < |db| - 1 ensures Startable(db[1..][j]) {
          assert db[1..][j] == db[j + 1];
        }
      } else {
        var i :| 0 <= i < |db| && !Startable(db[i]);
        assert !Startable(db[1..][i - 1]);
      }
    }
  }

  /** The source's log path can be formed and no file is there. */
  predicate FreshLog(r: Record, fs: FileSystem) {
    LogPath(r).Ok? && LogPath(r).value !in fs
  }

  /** Start-up never creates a log file. */
  lemma {:induction false} SetupKeepsAbsent(db: Mapping, fs: FileSystem, p: string)
    requires Setup(db, fs).Ok?
    requires EndsWith(p, LOG_EXT) && p !in fs
    ensures p !in Setup(db, fs).value.fs
    decreases |db|
  {
    if db != [] {
      var rec := MakeRecord(db[0].key, db[0].val).value;
      RotateKeepsAbsent(fs, LogPath(rec).value, p);
      SetupKeepsAbsent(db[1..], MovePath(fs, rec).value, p);
    }
  }

  /** Start-up leaves every source with a fresh primary log file. */
  lemma {:induction false} SetupClearsLogs(db: Mapping, fs: FileSystem)
    requires Setup(db, fs).Ok?
    ensures forall i :: 0 <= i < |Setup(db, fs).value.items| ==>
              FreshLog(Setup(db, fs).value.items[i], Setup(db, fs).value.fs)
    decreases |db|
  {
    if db != [] {
      var rec := MakeRecord(db[0].key, db[0].val).value;
      var fs1 := MovePath(fs, rec).value;
      SetupClearsLogs(db[1..], fs1);
      var rest := Setup(db[1..], fs1).value;
      assert Setup(db, fs).value == Startup([rec] + rest.items, rest.fs);
      SetupKeepsAbsent(db[1..], fs1, LogPath(rec).value);
      AllFresh(rec, rest.items, rest.fs);
    }
  }

  lemma AllFresh(rec: Record, rest: seq<Record>, fs: FileSystem)
    requires FreshLog(rec, fs)
    requires forall i :: 0 <= i < |rest| ==> FreshLog(rest[i], fs)
    ensures forall i :: 0 <= i < |[rec] + rest| ==> FreshLog(([rec] + rest)[i], fs)
  {
  }

  /** A log file that is missing stays missing through a rotation: the
      backups a rotation writes end in a digit, log files in "txt". */
  lemma RotateKeepsAbsent(fs: FileSystem, path: string, p: string)
    requires EndsWith(p, LOG_EXT) && p !in fs
    ensures p !in Rotate(fs, path)
  {
    forall j: nat | 1 <= j <= MAXFILES
      ensures p != GenPath(path, j)
    {
      var t := IntText(j);
      assert GenPath(path, j)[|GenPath(path, j)| - 1] == t[|t| - 1];
      assert IsDigit(t[|t| - 1]);
      assert p[|p| - 1] == LOG_EXT[|LOG_EXT| - 1];
    }
    if path in fs {
      RotationFrame(fs, path, p);
    }
  }
}

=== FILE: outcomes.dfy ===
/** Option and Result types for the udplogger model.

    Python signals failure by raising; the script catches some exceptions
    and lets the others end the process. A `Fault` names an exception that
    escapes, and every operation that can raise one returns a `Result`.
 */
module Outcomes {

  datatype Option<+T> = None | Some(value: T) {

    /** The value held, or `default` when there is none (Python `d.get(k, default)`). */
    function GetOr(default: T): T {
      match this
      case Some(v) => v
      case None => default
    }
  }

  /** Exceptions that the script lets escape; each one ends the process. */
  datatype Fault =
    | TypeError        // an operator applied to a value of the wrong Python type
    | AttributeError   // `.replace` called on something that is not a string
    | DecodeError      // a datagram whose bytes are not valid UTF-8
    | ReprNotModelled  // a file name that would embed the repr of a dict

  datatype Result<+T> = Ok(value: T) | Err(fault: Fault) {

    predicate IsFailure() {
      Err?
    }

    function PropagateFailure<U>(): Result<U>
      requires Err?
    {
      Err(fault)
    }

    function Extract(): T
      requires Ok?
    {
      value
    }
  }
}

=== FILE: rotation.dfy ===
/** Log file naming and the generation shift (`udplogger.logPath`,
    `movePath` and `copyFile`).

    The file system is a map from path to content. `shutil.copyfile` of a
    missing file raises and is swallowed, so it changes nothing; a copy onto
    an existing file replaces its content.
 */
module Rotation {
  import opened Outcomes
  import opened Text
  import opened Scalars
  import opened Codec
  import opened Sources

  /** Regular files by path. */
  type FileSystem = map<string, string>

  /** Number of numbered backups kept next to the primary log file. */
  const MAXFILES: nat := 8

  const LOG_EXT: string := "_log.txt"

  predicate NoSlash(s: string) {
    forall i :: 0 <= i < |s| ==> s[i] != '/'
  }

  predicate EndsWith(s: string, suffix: string) {
    |suffix| <= |s| && s[|s| - |suffix|..] == suffix
  }

  predicate StartsWith(s: string, prefix: string) {
    |prefix| <= |s| && s[..|prefix|] == prefix
  }

  /** Python `os.path.join(a, b)` on POSIX: an absolute `b` replaces `a`;
      otherwise a separator is inserted unless `a` is empty or already
      ends with one. */
  function Join(a: string, b: string): (r: string)
    ensures EndsWith(r, b)
    ensures |b| > 0 && b[0] == '/' ==> r == b
    ensures !(|b| > 0 && b[0] == '/') ==> StartsWith(r, a)
    ensures |r| <= |a| + 1 + |b|
    ensures !(|b| > 0 && b[0] == '/') ==>
              |r| == |a| + |b| + (if a == [] || a[|a| - 1] == '/' then 0 else 1)
    ensures |r| == |a| + 1 + |b| ==> r[|a|] == '/'
  {
    if |b| > 0 && b[0] == '/' then b
    else if a == [] || a[|a| - 1] == '/' then a + b
    else a + "/" + b
  }

  /** Index of the last '/' in `s`, or -1. */
  function LastSlash(s: string): (r: int)
    ensures -1 <= r < |s|
    ensures r >= 0 ==> s[r] == '/'
    ensures forall i :: r < i < |s| ==> s[i] != '/'
    decreases |s|
  {
    if s == [] then -1
    else if s[|s| - 1] == '/' then |s| - 1
    else LastSlash(s[..|s| - 1])
  }

  /** Python `os.path.basename(p)`: what follows the last '/'. */
  function Basename(p: string): string {
    p[LastSlash(p) + 1..]
  }

  /** A name without '/' joined onto any folder is the basename of the
      result: `Join` puts the file directly in the folder. */
  lemma BasenameOfJoin(a: string, b: string)
    requires NoSlash(b)
    ensures Basename(Join(a, b)) == b
  {
    var x := if a == [] || a[|a| - 1] == '/' then a else a + "/";
    assert Join(a, b) == x + b;
    LastSlashBefore(x, b);
  }

  /** The last '/' of `x + b` ends `x` when `b` holds none and `x` is
      empty or ends with one. */
  lemma LastSlashBefore(x: string, b: string)
    requires NoSlash(b) && (x == [] || x[|x| - 1] == '/')
    ensures LastSlash(x + b) == |x| - 1
    ensures Basename(x + b) == b
  {
    var s := x + b;
    forall i | |x| <= i < |s|
      ensures s[i] != '/'
    {
      assert s[i] == b[i - |x|];
    }
    if x != [] {
      assert s[|x| - 1] == x[|x| - 1];
    }
    assert s[|x|..] == b;
  }

  /** Python `str(v)` for the value of a record's port. */
  function PyStr(v: Value): (r: Result<string>)
    ensures r.Ok? <==> v.Leaf?
    ensures v.Leaf? && v.scalar.Str? ==> r == Ok(v.scalar.s)
    ensures v.Leaf? && v.scalar.Int? ==> ReadDecimal(r.value) == Some(v.scalar.i)
  {
    match v
    case Leaf(Int(n)) => ReadDecimalOfIntText(n); Ok(IntText(n))
    case Leaf(Bool(b)) => Ok(if b then "True" else "False")
    case Leaf(Float(f)) => Ok(f.repr)
    case Leaf(Str(s)) => Ok(s)
    case Nested(_) => Err(ReprNotModelled)
  }

  /** The file name of a source: name, ip with '/' replaced by '_', port and
      the log extension, joined by '_'. A non-string ip has no `replace`. */
  function FileName(r: Record): (f: Result<string>)
    ensures f.Ok? <==> r.ip.Leaf? && r.ip.scalar.Str? && r.port.Leaf?
    ensures !(r.ip.Leaf? && r.ip.scalar.Str?) ==> f == Err(AttributeError)
    ensures f.Ok? ==> StartsWith(f.value, r.name + "_") && EndsWith(f.value, LOG_EXT)
    ensures f.Ok? && NoSlash(r.name) && NoSlash(PyStr(r.port).value) ==> NoSlash(f.value)
    ensures f.Ok? ==> f.value == r.name + "_" + ReplaceSlashes(r.ip.scalar.s) + "_" + PyStr(r.port).value + LOG_EXT
  {
    match r.ip
    case Leaf(Str(ip)) =>
      var port :- PyStr(r.port);
      var f := r.name + "_" + ReplaceSlashes(ip) + "_" + port + LOG_EXT;
      assert f[..|r.name + "_"|] == r.name + "_";
      Ok(f)
    case _ => Err(AttributeError)
  }

  /** Python `logPath(item)`: the file name inside the source's folder. A
      folder that is not a string makes `os.path.join` raise TypeError. */
  function LogPath(r: Record): (p: Result<string>)
    ensures p.Ok? <==> FileName(r).Ok? && r.folder.Leaf? && r.folder.scalar.Str?
    ensures FileName(r).Err? ==> p == Err(FileName(r).fault)
    ensures p.Ok? ==> EndsWith(p.value, FileName(r).value) && EndsWith(p.value, LOG_EXT)
  {
    var f :- FileName(r);
    match r.folder
    case Leaf(Str(d)) => Ok(Join(d, f))
    case _ => Err(TypeError)
  }

  /** A source whose name and port text hold no '/' logs into a file
      directly inside its folder. */
  lemma LogFileInFolder(r: Record)
    requires LogPath(r).Ok?
    requires NoSlash(r.name) && NoSlash(PyStr(r.port).value)
    ensures Basename(LogPath(r).value) == FileName(r).value
  {
    BasenameOfJoin(r.folder.scalar.s, FileName(r).value);
  }

  /** The path of generation `k`: the primary file for 0, `path.k` after. */
  function GenPath(path: string, k: nat): string {
    if k == 0 then path else path + "." + IntText(k)
  }

  /** Different generations never share a file. */
  lemma GenPathInjective(path: string, a: nat, b: nat)
    requires GenPath(path, a) == GenPath(path, b)
    ensures a == b
  {
    if a != 0 && b != 0 {
      var p := |path| + 1;
      assert IntText(a) == GenPath(path, a)[p..];
      assert IntText(b) == GenPath(path, b)[p..];
      ReadDecimalOfIntText(a);
      ReadDecimalOfIntText(b);
    }
  }

  /** The file system after the copy loop has run its rounds for the
      destinations `lo`..MAXFILES, deepest first: `path.k` takes the content
      of `path.(k-1)` whenever that file exists. */
  function Partial(fs: FileSystem, path: string, lo: nat): (r: FileSystem)
    requires 1 <= lo <= MAXFILES + 1
    ensures fs.Keys <= r.Keys
    decreases MAXFILES + 1 - lo
  {
    if lo == MAXFILES + 1 then fs
    else
      var r := Partial(fs, path, lo + 1);
      if GenPath(path, lo - 1) in fs then r[GenPath(path, lo) := fs[GenPath(path, lo - 1)]] else r
  }

  /** The full copy: every destination 1..MAXFILES has had its round. */
  function Shift(fs: FileSystem, path: string): FileSystem {
    Partial(fs, path, 1)
  }

  /** Files that are not destinations of the remaining rounds are untouched. */
  lemma {:induction false} PartialFrame(fs: FileSystem, path: string, lo: nat, p: string)
    requires 1 <= lo <= MAXFILES + 1
    requires forall k: nat :: lo <= k <= MAXFILES ==> p != GenPath(path, k)
    ensures p in Partial(fs, path, lo) <==> p in fs
    ensures p in fs ==> Partial(fs, path, lo)[p] == fs[p]
    decreases MAXFILES + 1 - lo
  {
    if lo <= MAXFILES {
      PartialFrame(fs, path, lo + 1, p);
    }
  }

  /** What a destination holds once its round and all deeper ones ran. */
  lemma {:induction false} PartialAt(fs: FileSystem, path: string, lo: nat, k: nat)
    requires 1 <= lo <= k <= MAXFILES
    ensures GenPath(path, k - 1) in fs ==>
              GenPath(path, k) in Partial(fs, path, lo)
              && Partial(fs, path, lo)[GenPath(path, k)] == fs[GenPath(path, k - 1)]
    ensures GenPath(path, k - 1) !in fs ==>
              (GenPath(path, k) in Partial(fs, path, lo) <==> GenPath(path, k) in fs)
              && (GenPath(path, k) in fs ==> Partial(fs, path, lo)[GenPath(path, k)] == fs[GenPath(path, k)])
    decreases k - lo
  {
    if lo < k {
      PartialAt(fs, path, lo + 1, k);
      if GenPath(path, lo) == GenPath(path, k) {
        GenPathInjective(path, lo, k);
      }
    } else {
      forall j: nat | lo + 1 <= j <= MAXFILES
        ensures GenPath(path, k) != GenPath(path, j)
      {
        if GenPath(path, k) == GenPath(path, j) {
          GenPathInjective(path, k, j);
        }
      }
      PartialFrame(fs, path, lo + 1, GenPath(path, k));
    }
  }

  /** Python `copyFile(path)`: counting down from MAXFILES-1 to 0, copy
      generation i onto generation i+1, ignoring a missing source. */
  method CopyFile(fs: FileSystem, path: string) returns (r: FileSystem)
    ensures r == Shift(fs, path)
  {
    r := fs;
    var i: int := MAXFILES - 1;
    while i >= 0
      invariant -1 <= i <= MAXFILES - 1
      invariant r == Partial(fs, path, i + 2)
      decreases i
    {
      var src := if i == 0 then path else path + "." + IntText(i);
      var dst := path + "." + IntText(i + 1);
      assert src == GenPath(path, i) && dst == GenPath(path, i + 1);
      forall j: nat | i + 2 <= j <= MAXFILES
        ensures src != GenPath(path, j)
      {
        if src == GenPath(path, j) {
          GenPathInjective(path, i, j);
        }
      }
      PartialFrame(fs, path, i + 2, src);
      if src in r {
        r := r[dst := r[src]];
      }
      i := i - 1;
    }
  }

  /** Python `movePath` on an existing path: copy the generations up, then
      remove the primary file. A missing primary leaves everything as is. */
  function Rotate(fs: FileSystem, path: string): (r: FileSystem)
    ensures path !in r
    ensures forall p :: p in fs && p != path ==> p in r
    ensures path !in fs ==> r == fs
  {
    if path in fs then Shift(fs, path) - {path} else fs
  }

  /** The generation shift: after rotating an existing primary, backup `k`
      holds the old generation `k-1` (the primary itself for `k` = 1) when
      that existed, and otherwise keeps its own state. */
  lemma RotationShift(fs: FileSystem, path: string, k: nat)
    requires 1 <= k <= MAXFILES && path in fs
    ensures GenPath(path, k - 1) in fs ==>
              GenPath(path, k) in Rotate(fs, path)
              && Rotate(fs, path)[GenPath(path, k)] == fs[GenPath(path, k - 1)]
    ensures GenPath(path, k - 1) !in fs ==>
              (GenPath(path, k) in Rotate(fs, path) <==> GenPath(path, k) in fs)
              && (GenPath(path, k) in fs ==> Rotate(fs, path)[GenPath(path, k)] == fs[GenPath(path, k)])
  {
    PartialAt(fs, path, 1, k);
    if GenPath(path, k) == path {
      GenPathInjective(path, k, 0);
    }
  }

  /** A rotation touches only the primary and its backups. */
  lemma RotationFrame(fs: FileSystem, path: string, p: string)
    requires p != path && forall j: nat :: 1 <= j <= MAXFILES ==> p != GenPath(path, j)
    ensures p in Rotate(fs, path) <==> p in fs
    ensures p in fs ==> Rotate(fs, path)[p] == fs[p]
  {
    PartialFrame(fs, path, 1, p);
  }

  /** Python `movePath(item)`: rotate the source's log file; a record whose
      path cannot be formed raises. */
  function MovePath(fs: FileSystem, r: Record): (out: Result<FileSystem>)
    ensures out.Ok? <==> LogPath(r).Ok?
    ensures out.Ok? ==> LogPath(r).value !in out.value
    ensures out.Ok? ==> out.value == Rotate(fs, LogPath(r).value)
  {
    var p :- LogPath(r);
    Ok(Rotate(fs, p))
  }
}

=== FILE: scalars.dfy ===
/** Scalar coercion of configuration text (`database.gettype`, `settype`
    and `bl`).

    Python's `int()` and `float()` literal grammars are not modelled: the
    model takes them as a `Numerals` parameter and states, in `Sound`, the
    few facts about them that the proofs need.
 */
module Scalars {
  import opened Outcomes
  import opened Text

  /** What the model keeps of a Python float's value. */
  datatype FloatKind =
    | Finite(floor: int, integral: bool)  // math.floor of the value; whether it is a whole number
    | PosInf
    | NegInf
    | NaN

  /** A Python float: its `str()` text and its value's kind. */
  datatype FloatVal = FloatVal(repr: string, kind: FloatKind) {

    /** Python `f > 0`. */
    predicate Positive() {
      match kind
      case Finite(fl, whole) => fl > 0 || (fl == 0 && !whole)
      case PosInf => true
      case _ => false
    }

    /** Python `bool(f)`: every float except zero is true, NaN included. */
    predicate Truthy() {
      !(kind.Finite? && kind.floor == 0 && kind.integral)
    }

    /** Python `n > f` for an int `n`. */
    predicate ExceededBy(n: int) {
      match kind
      case Finite(fl, _) => n > fl
      case NegInf => true
      case _ => false
    }

    /** Python `n == f` for an int `n`. */
    predicate EqualsInt(n: int) {
      kind.Finite? && kind.integral && kind.floor == n
    }
  }

  /** A typed configuration value. */
  datatype Scalar = Int(i: int) | Float(f: FloatVal) | Bool(b: bool) | Str(s: string)

  /** Python's `int(text)` and `float(text)`: `None` where they raise ValueError. */
  datatype Numerals = Numerals(intOf: string -> Option<int>, floatOf: string -> Option<FloatVal>)

  /** "true" or "false" in any letter case. */
  predicate IsBoolWord(t: string) {
    Lower(t) == "true" || Lower(t) == "false"
  }

  /** Facts about Python's `int()` and `float()` that the model relies on:
      `int(str(n)) == n` for every int (CPython's limit on the number of
      digits it converts is not modelled), the empty string is no number,
      and neither parser accepts "true" or "false" in any case. */
  ghost predicate Sound(num: Numerals) {
    && (forall n: int :: num.intOf(IntText(n)) == Some(n))
    && num.intOf("") == None
    && num.floatOf("") == None
    && (forall t :: IsBoolWord(t) ==> num.intOf(t) == None && num.floatOf(t) == None)
  }

  /** Python `gettype(text, txtype)`: int first, then float, then the two
      bool words, then the text itself (or "" when `txtype` is false).
      Absent text (`None`) makes both parsers raise TypeError and yields "". */
  function Gettype(num: Numerals, text: Option<string>, txtype: bool): Scalar {
    match text
    case None => Str("")
    case Some(t) =>
      if num.intOf(t).Some? then Int(num.intOf(t).value)
      else if num.floatOf(t).Some? then Float(num.floatOf(t).value)
      else if t != "" then
        if Lower(t) == "false" then Bool(false)
        else if Lower(t) == "true" then Bool(true)
        else if txtype then Str(t)
        else Str("")
      else Str("")
  }

  /** Python `settype(element)`; `None` stands for Python's None. */
  function Settype(v: Option<Scalar>): string {
    match v
    case None => ""
    case Some(Bool(b)) => if b then "true" else "false"
    case Some(Int(n)) => IntText(n)
    case Some(Float(f)) => f.repr
    case Some(Str(s)) => s
  }

  /** Python `bl(val)` for a string: a positive float, or one of the words
      "true", "yes", "1" in any case when `float()` rejects the text. */
  function Bl(num: Numerals, val: string): bool {
    match num.floatOf(val)
    case Some(f) => f.Positive()
    case None => Lower(val) == "true" || Lower(val) == "yes" || Lower(val) == "1"
  }

  /** Scalars whose text form reads back as themselves. */
  predicate Plain(num: Numerals, v: Scalar) {
    match v
    case Bool(_) => true
    case Int(_) => true
    case Float(_) => false
    case Str(s) => s != "" && num.intOf(s) == None && num.floatOf(s) == None && !IsBoolWord(s)
  }

  lemma LowerOfLowerWord(t: string)
    requires t == "true" || t == "false"
    ensures Lower(t) == t
  {
  }

  /** The settype/gettype round trip for bools, ints and plain strings. */
  lemma SettypeRoundTrip(num: Numerals, v: Scalar)
    requires Sound(num)
    requires Plain(num, v)
    ensures Gettype(num, Some(Settype(Some(v))), true) == v
  {
    match v
    case Bool(b) =>
      var t := Settype(Some(v));
      LowerOfLowerWord(t);
      assert IsBoolWord(t);
    case Int(n) =>
    case Str(s) =>
  }

  /** The opposite direction: a text read as a string or bool is written back
      as itself, up to the letter case of the bool words. */
  lemma GettypeThenSettype(num: Numerals, t: string)
    ensures Gettype(num, Some(t), true).Str? ==> Settype(Some(Gettype(num, Some(t), true))) == t
    ensures Gettype(num, Some(t), true).Bool? ==> Settype(Some(Gettype(num, Some(t), true))) == Lower(t)
    ensures Gettype(num, Some(t), true).Int? ==> Settype(Some(Gettype(num, Some(t), true))) == IntText(num.intOf(t).value)
  {
  }

  /** The ordering of the attempts: integer text is an Int before any bool
      check, so "1" reads as the int 1, never as true. */
  lemma OneIsAnInt(num: Numerals)
    requires Sound(num)
    ensures Gettype(num, Some("1"), true) == Int(1)
    ensures Gettype(num, Some("1"), false) == Int(1)
  {
    assert IntText(1) == "1";
  }

  /** The order of the attempts for any text: whatever `int()` accepts is
      an Int, else whatever `float()` accepts is a Float, else a bool word
      is a Bool, whether or not `txtype` keeps other text. */
  lemma GettypeOrder(num: Numerals, t: string, txtype: bool)
    ensures num.intOf(t).Some? ==> Gettype(num, Some(t), txtype) == Int(num.intOf(t).value)
    ensures num.intOf(t).None? && num.floatOf(t).Some? ==>
              Gettype(num, Some(t), txtype) == Float(num.floatOf(t).value)
    ensures num.intOf(t).None? && num.floatOf(t).None? && IsBoolWord(t) ==>
              Gettype(num, Some(t), txtype) == Bool(Lower(t) == "true")
  {
  }

  /** The bool words are recognised in any letter case. */
  lemma BoolWordsAnyCase(num: Numerals, t: string, txtype: bool)
    requires Sound(num)
    requires IsBoolWord(t)
    ensures Gettype(num, Some(t), txtype) == Bool(Lower(t) == "true")
  {
    assert |t| == |Lower(t)|;
  }

  /** Empty or absent text reads as the empty string; other non-numeric,
      non-bool text is kept, or dropped to "" when `txtype` is false. */
  lemma EmptyAndOtherText(num: Numerals, t: string, txtype: bool)
    requires Sound(num)
    ensures Settype(None) == ""
    ensures Gettype(num, None, txtype) == Str("")
    ensures Gettype(num, Some(""), txtype) == Str("")
    ensures num.intOf(t) == None && num.floatOf(t) == None && !IsBoolWord(t) ==>
      Gettype(num, Some(t), txtype) == Str(if txtype then t else "")
  {
  }

  /** A bool word stored as a string never survives: written back and
      read again, it always comes back as a bool. */
  lemma BoolWordStringsAreLost(num: Numerals, s: string)
    requires Sound(num)
    requires IsBoolWord(s)
    ensures Gettype(num, Some(Settype(Some(Str(s)))), true) != Str(s)
  {
    BoolWordsAnyCase(num, s, true);
  }

  /** `bl` agrees with `gettype` on the bool words. */
  lemma BlAgreesOnBoolWords(num: Numerals, t: string)
    requires Sound(num)
    requires IsBoolWord(t)
    ensures Bl(num, t) == Gettype(num, Some(t), true).b
  {
    BoolWordsAnyCase(num, t, true);
  }

  /** `Sound` can be met: a strict decimal reader with no float literals. */
  lemma SoundIsSatisfiable()
    ensures Sound(Numerals(ReadDecimal, (t: string) => None))
  {
    var num := Numerals(ReadDecimal, (t: string) => None);
    forall n: int ensures num.intOf(IntText(n)) == Some(n) {
      ReadDecimalOfIntText(n);
    }
    forall t | IsBoolWord(t) ensures num.intOf(t) == None {
      assert t[0] == 't' || t[0] == 'T' || t[0] == 'f' || t[0] == 'F' by {
        assert Lower(t)[0] == LowerChar(t[0]);
      }
    }
  }
}

=== FILE: sources.dfy ===
/** Source records (`udplogger.daemon`, lines building `item2`) and the
    receive filter (`udplogger.onreceive`).

    A record is a Python dict copied from one top-level configuration
    entry, so its fields hold whatever `Value` the configuration held; the
    operations that read them follow Python's semantics for each type.
 */
module Sources {
  import opened Outcomes
  import opened Text
  import opened Scalars
  import opened Codec

  const DEFAULT_IP: string := "0.0.0.0"
  const DEFAULT_PORT: int := 6309
  const DEFAULT_FOLDER: string := "."
  const DEFAULT_TIME: bool := true
  const DEFAULT_MAXSIZE: int := 1000000

  /** The configured ip that accepts datagrams from every sender. */
  const WILDCARD: string := "0.0.0.0"

  /** The keys the daemon looks up in an entry, in the order it looks. */
  const FIELDS: seq<string> := ["ip", "port", "folder", "time", "maxsize"]

  /** One source: `item2` in the daemon. `size` counts what was logged
      since the last rotation. */
  datatype Record = Record(name: string, ip: Value, port: Value, folder: Value,
                           time: Value, maxsize: Value, size: int)

  /** A record holding every default that `daemon` applies to a missing field. */
  function Defaults(name: string): Record {
    Record(name, Leaf(Str(DEFAULT_IP)), Leaf(Int(DEFAULT_PORT)), Leaf(Str(DEFAULT_FOLDER)),
           Leaf(Bool(DEFAULT_TIME)), Leaf(Int(DEFAULT_MAXSIZE)), 0)
  }

  /** Python `item[k] if k in item else default` on a dict. */
  function Field(m: Mapping, k: string, default: Scalar): Value {
    Codec.Find(m, k).GetOr(Leaf(default))
  }

  /** The record the daemon derives from the entry `key` -> `item`.
      For a nested entry each field is copied when present and defaulted
      when not. For a string entry, `"ip" in item` is a substring test:
      when no field name occurs in the string every default applies, and
      when one does, `item["ip"]` raises TypeError. For any other scalar,
      `in` itself raises TypeError. */
  function MakeRecord(key: string, item: Value): (r: Result<Record>)
    ensures r.Ok? ==> r.value.name == key && r.value.size == 0
    ensures item.Nested? ==> r.Ok?
  {
    match item
    case Nested(m) =>
      Ok(Record(key, Field(m, "ip", Str(DEFAULT_IP)), Field(m, "port", Int(DEFAULT_PORT)),
                Field(m, "folder", Str(DEFAULT_FOLDER)), Field(m, "time", Bool(DEFAULT_TIME)),
                Field(m, "maxsize", Int(DEFAULT_MAXSIZE)), 0))
    case Leaf(Str(s)) =>
      if Contains(s, "ip") || Contains(s, "port") || Contains(s, "folder")
         || Contains(s, "time") || Contains(s, "maxsize")
      then Err(TypeError)
      else Ok(Defaults(key))
    case Leaf(_) => Err(TypeError)
  }

  /** Each field is copied from a nested entry when present there and
      defaulted otherwise; a string entry gets every default unless it
      contains a field name, and any other scalar entry raises. */
  lemma MakeRecordFields(key: string, item: Value)
    ensures item.Nested? ==> forall k :: k in Keys(item.entries) && k in FIELDS ==>
      Codec.Find(item.entries, k) == Some(FieldOf(MakeRecord(key, item).value, k))
    ensures item.Nested? ==> forall k :: k !in Keys(item.entries) && k in FIELDS ==>
      FieldOf(MakeRecord(key, item).value, k) == FieldOf(Defaults(key), k)
    ensures item.Leaf? ==> (MakeRecord(key, item).Ok? <==>
      item.scalar.Str? && forall f :: f in FIELDS ==> !Contains(item.scalar.s, f))
    ensures item.Leaf? && MakeRecord(key, item).Ok? ==> MakeRecord(key, item).value == Defaults(key)
  {
  }

  /** The field of a record named by a configuration key. */
  function FieldOf(r: Record, k: string): Value
    requires k in FIELDS
  {
    if k == "ip" then r.ip
    else if k == "port" then r.port
    else if k == "folder" then r.folder
    else if k == "time" then r.time
    else r.maxsize
  }

  /** Python `bool(v)`. */
  predicate Truthy(v: Value) {
    match v
    case Leaf(Bool(b)) => b
    case Leaf(Int(n)) => n != 0
    case Leaf(Float(f)) => f.Truthy()
    case Leaf(Str(s)) => s != ""
    case Nested(m) => m != []
  }

  /** Python `p == v` for the sender's int port `p`. */
  predicate PortEquals(p: int, v: Value) {
    match v
    case Leaf(Int(n)) => p == n
    case Leaf(Bool(b)) => p == (if b then 1 else 0)
    case Leaf(Float(f)) => f.EqualsInt(p)
    case _ => false
  }

  /** The receive filter of `onreceive`: the sender's ip equals the
      configured ip, or the configured ip is the wildcard; and the sender's
      port equals the configured port. */
  predicate Accepts(r: Record, senderIp: string, senderPort: int) {
    (Leaf(Str(senderIp)) == r.ip || r.ip == Leaf(Str(WILDCARD))) && PortEquals(senderPort, r.port)
  }

  /** With the wildcard ip, a datagram is accepted exactly when its port
      matches, whatever its sender's address. */
  lemma WildcardAcceptsAnySender(r: Record, senderIp: string, senderPort: int)
    requires r.ip == Leaf(Str(WILDCARD))
    ensures Accepts(r, senderIp, senderPort) <==> PortEquals(senderPort, r.port)
  {
  }

  /** What the sender's int port compares equal to: an int port of the
      same value, `True`/`False` as 1/0, a float of the same value; a
      string or a dict never equals it. */
  lemma PortEqualsMeaning(p: int, v: Value)
    ensures v.Leaf? && v.scalar.Int? ==> (PortEquals(p, v) <==> p == v.scalar.i)
    ensures v.Leaf? && v.scalar.Bool? ==> (PortEquals(p, v) <==> p == (if v.scalar.b then 1 else 0))
    ensures v.Leaf? && v.scalar.Str? ==> !PortEquals(p, v)
    ensures v.Nested? ==> !PortEquals(p, v)
  {
  }

  /** For a source configured with a string ip and an int port, the filter
      accepts a datagram exactly when its sender's address is that ip (or
      the ip is the wildcard) and its sender's port is that port. */
  lemma AcceptsExactly(r: Record, ip: string, port: int, senderIp: string, senderPort: int)
    requires r.ip == Leaf(Str(ip)) && r.port == Leaf(Int(port))
    ensures Accepts(r, senderIp, senderPort) <==> (senderIp == ip || ip == WILDCARD) && senderPort == port
  {
    PortEqualsMeaning(senderPort, r.port);
  }

  /** In particular a datagram from the configured address and port is
      always logged, and with the wildcard one from any address is. */
  lemma MatchingSenderAccepted(r: Record, senderIp: string, senderPort: int)
    requires r.port == Leaf(Int(senderPort))
    requires r.ip == Leaf(Str(senderIp)) || r.ip == Leaf(Str(WILDCARD))
    ensures Accepts(r, senderIp, senderPort)
  {
  }

  /** A record configured with some other specific ip never accepts the
      sender, whatever the port. */
  lemma OtherIpRejected(r: Record, senderIp: string, senderPort: int)
    requires r.ip != Leaf(Str(WILDCARD)) && r.ip != Leaf(Str(senderIp))
    ensures !Accepts(r, senderIp, senderPort)
  {
  }

  /** The document `createXML` writes, as it reads back (the parser drops
      the explanatory comment). */
  function DefaultDocument(): Node {
    Node("logger", None, [Node("mylogger", None, [
      Node("ip", Some("0.0.0.0"), []),
      Node("port", Some("6309"), []),
      Node("time", Some("true"), []),
      Node("folder", Some("."), []),
      Node("maxsize", Some("1000000"), [])])])
  }

  /** The field elements of the sample source, in document order. */
  const FIELDS_IN_DOCUMENT: seq<string> := ["ip", "port", "time", "folder", "maxsize"]

  /** The entries of the sample source, in document order. */
  const DEFAULT_ENTRIES: Mapping := [
    Entry("ip", Leaf(Str(DEFAULT_IP))), Entry("port", Leaf(Int(DEFAULT_PORT))),
    Entry("time", Leaf(Bool(DEFAULT_TIME))), Entry("folder", Leaf(Str(DEFAULT_FOLDER))),
    Entry("maxsize", Leaf(Int(DEFAULT_MAXSIZE)))]

  lemma MaxsizeText()
    ensures IntText(1000000) == "1000000"
  {
    assert NatText(10) == "10";
    assert NatText(100) == "100";
    assert NatText(1000) == "1000";
    assert NatText(10000) == "10000";
    assert NatText(100000) == "100000";
  }

  /** The field elements `buildXML` writes for the defaults. */
  lemma DefaultFieldsBuilt()
    ensures BuildKids(Nested(DEFAULT_ENTRIES), 0) == DefaultDocument().kids[0].kids
  {
    var v := Nested(DEFAULT_ENTRIES);
    var k4 := Node("maxsize", Some("1000000"), []);
    var k3 := Node("folder", Some("."), []);
    var k2 := Node("time", Some("true"), []);
    var k1 := Node("port", Some("6309"), []);
    var k0 := Node("ip", Some("0.0.0.0"), []);
    assert BuildKids(v, 4) == [k4] by {
      MaxsizeText();
      assert BuildKids(v, 5) == [];
    }
    assert BuildKids(v, 3) == [k3, k4];
    assert BuildKids(v, 2) == [k2, k3, k4];
    assert BuildKids(v, 1) == [k1, k2, k3, k4] by {
      assert IntText(6309) == "6309";
    }
    assert BuildKids(v, 0) == [k0, k1, k2, k3, k4];
  }

  /** The hand-built document is what `buildXML` writes for the defaults. */
  lemma DefaultDocumentIsBuilt()
    ensures DefaultDocument()
         == BuildXML(Node("logger", None, []), Nested([Entry("mylogger", Nested(DEFAULT_ENTRIES))]))
  {
    var inner := BuildXML(Node("mylogger", None, []), Nested(DEFAULT_ENTRIES));
    assert inner == DefaultDocument().kids[0] by {
      DefaultFieldsBuilt();
    }
    assert BuildKids(Nested([Entry("mylogger", Nested(DEFAULT_ENTRIES))]), 0) == [inner];
  }

  /** Each default reads back as itself from its written text. */
  lemma DefaultReadsBack(num: Numerals, i: nat)
    requires Sound(num)
    requires num.intOf("0.0.0.0") == None && num.floatOf("0.0.0.0") == None
    requires num.intOf(".") == None && num.floatOf(".") == None
    requires i < |DEFAULT_ENTRIES|
    ensures EncodableValue(num, DEFAULT_ENTRIES[i].val)
  {
    if i == 0 {
      assert Lower("0.0.0.0")[0] == '0';
    } else if i == 1 {
      assert IntText(6309) == "6309";
    } else if i == 2 {
      assert Lower("true") == "true";
      assert IsBoolWord("true");
    } else if i == 3 {
      assert |Lower(".")| == 1;
    } else {
      MaxsizeText();
    }
  }

  lemma DefaultKeysUnique()
    ensures UniqueKeys(DEFAULT_ENTRIES)
  {
    var m := DEFAULT_ENTRIES;
    assert Keys(m) == FIELDS_IN_DOCUMENT by {
      assert m[1..][1..] == m[2..];
      assert m[2..][1..] == m[3..];
      assert m[3..][1..] == m[4..];
      assert Keys(m[4..]) == ["maxsize"];
      assert Keys(m[3..]) == ["folder", "maxsize"];
      assert Keys(m[2..]) == ["time", "folder", "maxsize"];
      assert Keys(m[1..]) == ["port", "time", "folder", "maxsize"];
    }
    var ks := FIELDS_IN_DOCUMENT;
    forall i, j | 0 <= i < j < |ks| ensures ks[i] != ks[j] {
      assert ks[i][0] != ks[j][0] || |ks[i]| != |ks[j]|;
    }
  }

  lemma DefaultsEncodable(num: Numerals)
    requires Sound(num)
    requires num.intOf("0.0.0.0") == None && num.floatOf("0.0.0.0") == None
    requires num.intOf(".") == None && num.floatOf(".") == None
    ensures Encodable(num, [Entry("mylogger", Nested(DEFAULT_ENTRIES))])
  {
    var m := DEFAULT_ENTRIES;
    forall i | 0 <= i < |m| ensures EncodableValue(num, m[i].val) {
      DefaultReadsBack(num, i);
    }
    DefaultKeysUnique();
    assert Encodable(num, m);
    assert Keys([Entry("mylogger", Nested(m))]) == ["mylogger"];
  }

  /** The sample source's entries derive the record of the defaults. */
  lemma DefaultEntriesGiveDefaults()
    ensures MakeRecord("mylogger", Nested(DEFAULT_ENTRIES)) == Ok(Defaults("mylogger"))
  {
    var m := DEFAULT_ENTRIES;
    assert m[1..][1..] == m[2..];
    assert m[2..][1..] == m[3..];
    assert m[3..][1..] == m[4..];
    assert Codec.Find(m, "ip") == Some(Leaf(Str(DEFAULT_IP)));
    assert Codec.Find(m, "port") == Codec.Find(m[1..], "port") == Some(Leaf(Int(DEFAULT_PORT)));
    assert Codec.Find(m, "time") == Codec.Find(m[1..], "time") == Codec.Find(m[2..], "time")
        == Some(Leaf(Bool(DEFAULT_TIME)));
    assert Codec.Find(m, "folder") == Codec.Find(m[1..], "folder") == Codec.Find(m[2..], "folder")
        == Codec.Find(m[3..], "folder") == Some(Leaf(Str(DEFAULT_FOLDER)));
    assert Codec.Find(m, "maxsize") == Codec.Find(m[1..], "maxsize") == Codec.Find(m[2..], "maxsize")
        == Codec.Find(m[3..], "maxsize") == Codec.Find(m[4..], "maxsize")
        == Some(Leaf(Int(DEFAULT_MAXSIZE)));
  }

  /** The document written when no configuration exists (`createXML`)
      describes exactly the defaults the daemon applies: reading it back
      and deriving the record gives the record of the defaults. */
  lemma DefaultDocumentMatchesDefaults(num: Numerals)
    requires Sound(num)
    requires num.intOf("0.0.0.0") == None && num.floatOf("0.0.0.0") == None
    requires num.intOf(".") == None && num.floatOf(".") == None
    ensures ParseKids(num, DefaultDocument(), true) == [Entry("mylogger", Nested(DEFAULT_ENTRIES))]
    ensures MakeRecord("mylogger", Nested(DEFAULT_ENTRIES)) == Ok(Defaults("mylogger"))
  {
    DefaultDocumentIsBuilt();
    DefaultsEncodable(num);
    CodecRoundTrip(num, Node("logger", None, []), [Entry("mylogger", Nested(DEFAULT_ENTRIES))]);
    DefaultEntriesGiveDefaults();
  }
}

=== FILE: text.dfy ===
/** String helpers shared by the udplogger model: Python's `str(int)`,
    ASCII case folding, `str.find`, slicing and `str.replace`.
 */
module Text {
  import opened Outcomes

  predicate IsDigit(c: char) {
    '0' <= c <= '9'
  }

  function Digit(d: nat): (c: char)
    requires d < 10
    ensures IsDigit(c)
  {
    ('0' as int + d) as char
  }

  function DigitValue(c: char): (d: nat)
    requires IsDigit(c)
    ensures d < 10 && Digit(d) == c
  {
    (c as int - '0' as int) as nat
  }

  /** Decimal text of a natural number, without leading zeros. */
  function NatText(n: nat): (s: string)
    ensures 1 <= |s|
    ensures forall i :: 0 <= i < |s| ==> IsDigit(s[i])
    decreases n
  {
    if n < 10 then [Digit(n)] else NatText(n / 10) + [Digit(n % 10)]
  }

  /** Python `str(n)` for an int. */
  function IntText(n: int): string {
    if n < 0 then "-" + NatText(-n) else NatText(n)
  }

  /** Value of a non-empty run of decimal digits. */
  function DigitsValue(s: string): nat
    requires forall i :: 0 <= i < |s| ==> IsDigit(s[i])
    decreases |s|
  {
    if s == [] then 0 else DigitsValue(s[..|s| - 1]) * 10 + DigitValue(s[|s| - 1])
  }

  /** A strict decimal reader: an optional '-' then one or more digits. */
  function ReadDecimal(s: string): Option<int> {
    if |s| >= 2 && s[0] == '-' && (forall i :: 1 <= i < |s| ==> IsDigit(s[i])) then
      Some(0 - DigitsValue(s[1..]) as int)
    else if |s| >= 1 && forall i :: 0 <= i < |s| ==> IsDigit(s[i]) then
      Some(DigitsValue(s))
    else
      None
  }

  lemma {:induction false} DigitsOfNatText(n: nat)
    ensures DigitsValue(NatText(n)) == n
    decreases n
  {
    var s := NatText(n);
    if n >= 10 {
      DigitsOfNatText(n / 10);
      assert s[..|s| - 1] == NatText(n / 10);
    }
  }

  /** Reading back the text of an int gives the int: `int(str(n)) == n`. */
  lemma ReadDecimalOfIntText(n: int)
    ensures ReadDecimal(IntText(n)) == Some(n)
  {
    var t := IntText(n);
    if n < 0 {
      var d := NatText(-n);
      assert t == "-" + d && t[1..] == d;
      assert DigitsValue(d) == -n by {
        DigitsOfNatText(-n);
      }
      assert forall i :: 1 <= i < |t| ==> IsDigit(t[i]) by {
        forall i | 1 <= i < |t| ensures IsDigit(t[i]) {
          assert t[i] == d[i - 1];
        }
      }
    } else {
      assert DigitsValue(t) == n by {
        DigitsOfNatText(n);
      }
      assert IsDigit(t[0]);
    }
  }

  function LowerChar(c: char): char {
    if 'A' <= c <= 'Z' then (c as int + 32) as char else c
  }

  /** ASCII lower-casing. Compared with "true", "false", "yes" or "1",
      Python's Unicode `str.lower()` gives the same verdict, because only
      the ASCII capitals lower-case to those ASCII characters. */
  function Lower(s: string): (r: string)
    ensures |r| == |s|
    ensures forall i :: 0 <= i < |s| ==> r[i] == LowerChar(s[i])
  {
    if s == [] then [] else [LowerChar(s[0])] + Lower(s[1..])
  }

  /** `pat` occurs in `s` starting at index `i`. */
  predicate MatchAt(s: string, pat: string, i: nat) {
    i + |pat| <= |s| && s[i..i + |pat|] == pat
  }

  /** Python `pat in s` for strings. */
  predicate Contains(s: string, pat: string) {
    exists i: nat | i <= |s| :: MatchAt(s, pat, i)
  }

  function FindFrom(s: string, pat: string, from: nat): (r: int)
    ensures r == -1 || (from <= r && MatchAt(s, pat, r))
    ensures r == -1 ==> forall i: nat :: from <= i ==> !MatchAt(s, pat, i)
    ensures r >= 0 ==> forall i: nat :: from <= i < r ==> !MatchAt(s, pat, i)
    decreases |s| - from
  {
    if from + |pat| > |s| then -1
    else if MatchAt(s, pat, from) then from
    else FindFrom(s, pat, from + 1)
  }

  /** Python `s.find(pat)`: the first index where `pat` occurs, or -1. */
  function Find(s: string, pat: string): (r: int)
    ensures r == -1 <==> !Contains(s, pat)
    ensures r >= 0 ==> MatchAt(s, pat, r) && forall i: nat :: i < r ==> !MatchAt(s, pat, i)
  {
    FindFrom(s, pat, 0)
  }

  /** Python `s[a:b]` for indices already inside `s`: empty when `a > b`. */
  function Slice(s: string, a: nat, b: nat): (r: string)
    requires a <= |s| && b <= |s|
    ensures a <= b ==> r == s[a..b]
    ensures b < a ==> r == ""
  {
    if a <= b then s[a..b] else ""
  }

  /** What `s[a:b]` holds: `b - a` characters when the bounds are in
      order, none otherwise, and its character `i` is character `a + i`
      of `s`. */
  lemma SliceMeaning(s: string, a: nat, b: nat)
    requires a <= |s| && b <= |s|
    ensures |Slice(s, a, b)| == if a <= b then b - a else 0
    ensures forall i :: 0 <= i < |Slice(s, a, b)| ==> Slice(s, a, b)[i] == s[a + i]
  {
  }

  /** A slice of a slice is a slice of the original. */
  lemma SliceOfSlice(s: string, a: nat, b: nat, i: nat, n: nat)
    requires a <= b <= |s| && i + n <= b - a
    ensures s[a..b][i..i + n] == s[a + i..a + i + n]
  {
    var x, y := s[a..b][i..i + n], s[a + i..a + i + n];
    forall j | 0 <= j < n
      ensures x[j] == y[j]
    {
    }
  }

  /** An occurrence inside a slice is an occurrence in the whole string. */
  lemma MatchInSlice(s: string, a: nat, b: nat, pat: string, i: nat)
    requires a <= b <= |s| && MatchAt(s[a..b], pat, i)
    ensures MatchAt(s, pat, a + i)
  {
    SliceOfSlice(s, a, b, i, |pat|);
  }

  /** Python `s.replace("/", "_")`. */
  function ReplaceSlashes(s: string): (r: string)
    ensures |r| == |s|
    ensures forall i :: 0 <= i < |s| ==> r[i] == (if s[i] == '/' then '_' else s[i])
  {
    if s == [] then [] else [if s[0] == '/' then '_' else s[0]] + ReplaceSlashes(s[1..])
  }
}
